=== FILE: README.md ===
# Caman core in Dafny

A model of the sequential logic in Caman, a virtual-webcam compositor written in Python. The model covers four parts.

- **The frame-provider chain** (`src/Provider.py`). A chain is a source at the bottom wrapped by decorators, each owning one child:
  - sources: still picture, rendered text, camera, video, animated GIF, and the relay that reads another layer;
  - decorators: rate limiter, looper, on-press gate, boomerang replay, horizontal scroller, segmentation, and the three toggled filters.

  Each node's `setParams`, `command`, `reset` and `next` is a pure function over an explicit `Provider` tree.
- **Layer state** (`src/Layer.py`). This covers parameter updates, publishing and reading the frame and mask, the picture layer's reload, and one iteration of the animated layer's worker.
- **The fake-webcam encoder** (`src/pyfakewebcam/pyfakewebcam.py`). This covers format and geometry selection, frame validation, and the byte layouts of the seven supported output formats. The layouts are those of the packed YUV 4:2:2 and packed RGB formats in the pixel-format chapter of the Linux V4L2 API documentation.
- **The pure parts of the stand-alone main loop** (`caman.py`). This covers `shift_image`, choosing the frame (live or replayed while paused), the two-second history, the key switches and the pacing read.

Pixels stay abstract. Every OpenCV call yields free `Lib(op, input, row, col)` pixel terms, and the only property the model relies on is the geometry of the result. The BGR-to-YUV conversion is a function parameter. A Python exception is an `Err(fault)` result, so the modelled error paths are values, not preconditions. The error paths the model does not follow are listed under "## Left out".

Modules, one per file:

- `outcomes.dfy`: the exception and option types.
- `arith.dfy`: division and modulo facts.
- `images.dfy`: numpy images.
- `dimension.dfy`: the `-1` size rule.
- `history.dfy`: time-stamped histories and Python indexing.
- `pingpong.dfy`: the back-and-forth replay cursor.
- `shifting.dfy`: `shift_image`.
- `strip.dfy` and `scroller.dfy`: the horizontal scroller.
- `sources.dfy`: the leaf providers.
- `replay.dfy`: the boomerang state machine.
- `providers.dfy`: the chain.
- `layers.dfy`: layers.
- `slices.dfy`: numpy strided slices.
- `encoder.dfy`: the V4L2 encoder.
- `caman.dfy`: the main loop.

Behaviour that is modelled exactly as the code does it, even where it looks unintended:

- **The GIF and video reset guard.** It tests `width <= 0` twice. So a non-positive width alone selects the clip's native size, and an explicit height is then discarded (`Dimension.ResetDims`, `Dimension.ResetDropsExplicitHeight`).
- **The luma rescale.** `y * 235 // 255 + 16` yields 16..251. Studio swing would end at 235 (`Encoder.LumaFacts`).
- **The rate limiter.** It takes `1 / fps` before testing the sign, so a rate of zero raises (`Providers.FrameTime`).
- **The replay cursor.** It swaps its two indices at either end, so each end point is shown once per period and not twice (`PingPong.EndsVisitedOnce`).
- **The scroller's period.** It is the padded width: frame width plus padding when the frame is wider than the window, otherwise window width plus padding (`Scroller.ScrolledPeriodic`).
- **Odd widths in the 4:2:2 formats.** They do not pack, because numpy refuses the mismatched slice shapes. A width of one still packs in YUYV and YVYU, because the single chroma value is broadcast (`Encoder.RowFitsExactly`).
- **The GIF reader.** It seeks one frame past its position before decoding, so the first frame is skipped after every reset (`Sources.Next`).
- **A short replay.** Starting a replay over fewer than two recorded frames fails on the first replayed frame, through Python's index rules (`Replay.ShortReplayFails`, `Caman.TickKeepsGood`).

Time is a `real` parameter (the code reads `time.time()`, a float).

## Model

| member | source | states |
|---|---|---|
| Images.Resize | src/Provider.py:84-86 | a resize succeeds exactly when both target sides are positive, and then has exactly the target size and the input's channel count |
| Images.SplitAlpha | src/Provider.py:69-71 | a four-channel image splits into a three-channel frame and a one-channel mask of the same height and width |
| Dimension.ResolveFrame | src/Provider.py:75-84 | placeholder pair: frame passes untouched; fixed pair: kept, frame resized to it; one-sided pair: missing side filled by floor-division aspect ratio; on success both stored sides are positive and equal the frame's size |
| Dimension.ResolveFrameMask | src/Provider.py:75-86 | the mask is resized with the frame: present exactly when it was, and of the frame's size whenever resizing happens |
| Dimension.ResetDims | src/Provider.py:211-220 | as written: a non-positive width alone yields the native size; a positive width follows the resolution rule of `next` |
| Dimension.ResolvedIsStable | src/Provider.py:75-84 | after one resolution, resolving again for any later frame keeps the stored pair and yields a frame of exactly that size |
| Dimension.ResolveKeepsAspect | src/Provider.py:80-81 | the filled-in height is the largest h with h * native width <= width * native height |
| Dimension.ResolveFailsWhenRoundedToZero | src/Provider.py:80-84 | a one-sided resolution fails exactly when rounding down makes the filled-in side zero |
| Dimension.ResetDropsExplicitHeight | src/Provider.py:110-118 | with a placeholder width, the reset loses an explicit height that `next`'s rule would keep |
| History.PyGet | src/Provider.py:575 | Python indexing: defined exactly on -len..len-1, negative indices counting from the end |
| History.DropStale | src/Provider.py:571-572 | the trim keeps a suffix whose first entry is fresh, after dropping only stale entries; it fails exactly when every entry is stale |
| History.Record | src/Provider.py:570-572 | with a non-negative duration, recording always succeeds and the newest entry is the one just recorded |
| History.RecordKeepsFresh | caman.py:121-123 | recording into a time-ordered history no later than now keeps it ordered and leaves only entries younger than the duration |
| PingPong.Step | src/Provider.py:577-582 | the step keeps both indices in range and one apart; inside the list it keeps going in the same direction, and at either end it reverses |
| PingPong.IterateKeepsInv | caman.py:112-118 | every cursor reachable from the start (1, 0) over at least two frames satisfies the invariant |
| PingPong.ClosedForm | src/Provider.py:577-582 | from the start, the cursor after n steps is the pair of consecutive samples of a triangle wave of period 2(L-1) |
| PingPong.Periodic | src/Provider.py:577-582 | the walk returns to its start after 2(L-1) steps |
| PingPong.EndsVisitedOnce | src/Provider.py:577-578 | each end of the list is visited exactly once per period |
| Shifting.ShiftImage | src/Provider.py:810-821 | the shifted image keeps the grid's shape |
| Shifting.ShiftImageReads | caman.py:24-35 | pixel (i, j) of the result is pixel (i-dy, j-dx) of the input when that exists, otherwise zero, for every shift including ones beyond the image |
| Shifting.ShiftByZero | caman.py:24-35 | a shift by (0, 0) returns the image unchanged |
| Shifting.ShiftBeyondExtent | src/Provider.py:810-821 | a shift of at least the full extent blanks the whole image |
| Strip.WideRowIsCyclicRead | src/Provider.py:664-672 | a wide row's column j is column (dx + j) mod the padded width of the padded frame row |
| Strip.NarrowRowIsCyclicRead | src/Provider.py:679-696 | a narrow row's column j is column (j - dx) mod (window + pad) of the frame row padded with zeros |
| Strip.WideRowPeriodic | src/Provider.py:665-672 | a wide row repeats after one padded width |
| Strip.NarrowRowPeriodic | src/Provider.py:681-688 | a narrow row repeats after the window width plus padding |
| Scroller.Window | src/Provider.py:645-651 | a fixed window is kept; a width-only window takes the frame's height; a height-only window rescales the frame and takes its width, failing when that width rounds to zero |
| Scroller.Layout | src/Provider.py:653-659 | frame and mask are scaled to the window's height with the same width, the mask stays present exactly when given, and the padding is int(width * pct) |
| Scroller.Step | src/Provider.py:640-701 | with no frame or a placeholder size the triple passes through; otherwise the output frame and mask have exactly the window's size, dx grows by speed, ret passes through; a negative padding fails, and so does a frame without exactly three channels (a flat frame with an index error, any other count with a broadcast error) |
| Scroller.StepReads | src/Provider.py:661-696 | every output pixel of frame and mask is the cyclic read of the padded frame (or of the mask, or an opaque stand-in) given by the direct description |
| Scroller.ScrolledPeriodic | src/Provider.py:664-681 | moving dx by the padded period shows the same frame and mask |
| Sources.Load | src/Provider.py:66-71 | a 2-D (grayscale) picture raises at the channel test; a four-channel picture gets a mask and a three-channel frame; any other keeps the frame whole and has no mask |
| Sources.Reset | src/Provider.py:66-71 | fails exactly for a 2-D picture; otherwise pictures and text reload their frame; camera and relay keep their state; video and GIF rewind to position 0 and settle their size with the reset rule, leaving it positive unless the width was already positive |
| Sources.StillNext | src/Provider.py:388-402 | a still source always reports a frame; before any reset it has none, which succeeds only at native size |
| Sources.Emit | src/Provider.py:223-239 | a decoded frame is resolved against the stored size and succeeds for placeholder and fixed sizes; its mask is present exactly when the alpha channel is split off |
| Sources.Next | src/Provider.py:270-292 | clips and devices are read in order and report exhaustion (False, None, None) once used up; the GIF reads one frame ahead; the relay reports the other layer's run flag; resized frames have the stored size; a video frame without a channel axis fails |
| Sources.VideoNeedsChannels | src/Provider.py:223-246 | at a placeholder or fixed size, a video frame is read exactly when it has a channel axis; a flat frame raises an index error, and a read frame is the resolved frame with its alpha split off when it has four channels |
| Replay.Shown | src/Provider.py:575-576 | with a valid cursor the shown frame is the one at L-1-idx, counted from the newest end |
| Replay.Press | src/Provider.py:599-611 | from inactive or stopping a press starts a replay of the current history at cursor (1, 0); from active it goes to stopping; every press records its time |
| Replay.Step | src/Provider.py:566-597 | every step records the child's output; while inactive the child's output passes through |
| Replay.StepActive | src/Provider.py:574-589 | an active replay keeps running, reports True, shows the frame under the cursor and moves the cursor one step |
| Replay.StepTransition | src/Provider.py:590-595 | a stopping replay shows the frozen frame over the child's ret until the delay has passed, then goes inactive and passes the child's output through |
| Replay.PressIsGood | src/Provider.py:602-608 | a press keeps the cursor valid exactly when it starts a replay over at least two frames, or stops a running one |
| Replay.ShortReplayFails | src/Provider.py:575-585 | a replay started over fewer than two frames fails on its first step |
| Replay.ReplayFollowsTriangle | src/Provider.py:574-582 | the n-th replay step shows the frame at the n-th position of the triangle wave, from the newest end |
| Providers.Forwarded | src/Provider.py:550-558 | the options passed to the child drop `provider`; the boomerang drops key, duration and stop delay, the gate and filters drop key, the scroller drops speed and padding; the scroller replaces a given size by (-1, -1) and segmentation always does; every other option passes unchanged |
| Providers.FrameTime | src/Provider.py:438-446 | the frame time is 1/fps for a positive rate, 0 for a negative one, and a rate of zero raises |
| Providers.SetParams | src/Provider.py:25-30 | every node stores the given size (or keeps its own), the chain keeps its shape when no child is supplied, and only a zero rate can make it fail |
| Providers.DimensionReachesChain | src/Provider.py:624-632 | a new size reaches every node down to the first rescaling decorator, every node below gets (-1, -1), and nothing else in any node changes |
| Providers.Pressed | src/Provider.py:526-531 | a claimed press adds one to an on-press gate's or a filter's count and sends a boomerang into its press transition, keeping the node's key and child |
| Providers.Command | src/Provider.py:32-35 | dispatch keeps the chain's depth, and an unclaimed key changes nothing |
| Providers.CommandClaims | src/Provider.py:784-789 | a key press is claimed exactly when some node of the chain owns that key |
| Providers.CommandDispatch | src/Provider.py:599-612 | only the outermost owner reacts; nodes above it change only their child; nodes below are untouched |
| Providers.Reset | src/Provider.py:451-452 | `reset` goes straight to the source and fails exactly when the source's reset does; every decorator keeps its own state |
| Providers.Filtered | src/Provider.py:794-805 | the effect is applied to a present frame exactly when the toggle count is odd; ret and mask pass unchanged |
| Providers.FilterParity | src/Provider.py:774-778 | a filter changes only the frame, only on odd counts, and two more presses restore its behaviour |
| Providers.Segmented | src/Provider.py:721-737 | with a frame the mask is replaced by a one-channel segmentation of the frame's size; with no frame the triple passes through |
| Providers.OnPressToggles | src/Provider.py:509-524 | the gate plays its child exactly when a press came while stopped or none came while playing; otherwise it shows nothing with zeroed counters; it always reports True |
| Providers.LooperNeverRunsDry | src/Provider.py:480-485 | a looper over a non-empty video never reports exhaustion: it rewinds and reads again, provided the frame it reads has a channel axis |
| Providers.LooperStep | src/Provider.py:480-485 | one looper call over a fixed-size video shows the frame at the position (a frame with a channel axis), the end of the clip counting as its start, and moves past it |
| Providers.LooperCycles | src/Provider.py:480-485 | over any number of calls, call k of a looper over a fixed-size video shows clip frame (pos + k) mod the clip length, when every frame it reads has a channel axis |
| Providers.LooperExample | src/Provider.py:480-485 | for any three frames with a channel axis at a fixed size, the clip gives frames 1, 2, 3, 1, 2 in five calls |
| Providers.FrequencyPassesThrough | src/Provider.py:454-461 | the rate limiter returns its child's output unchanged and fails exactly when the child does |
| Providers.ShiftFillsWindow | src/Provider.py:640-701 | the scroller's frame and mask always fill its fixed window, and dx grows by speed |
| Providers.Next | src/Provider.py:454-461 | `next` keeps the chain's depth and shape |
| Layers.WriteFrame | src/Layer.py:43-48 | the frame is stored as given and nothing else changes |
| Layers.WriteMask | src/Layer.py:50-60 | mask and complement are stored together exactly when a mask is given; nothing else changes |
| Layers.WriteThenRead | src/Layer.py:62-80 | reading back gives what was written, and frame and mask writes do not disturb each other |
| Layers.SetParams | src/Layer.py:16-28 | each present key overwrites its field, and an absent key leaves the field alone |
| Layers.SetParamsIdempotent | src/Layer.py:16-28 | applying the same parameters twice is the same as once, and applying none changes nothing |
| Layers.Command | src/Layer.py:30-31 | a plain layer claims no key |
| Layers.UpdateDimension | src/Layer.py:33-41 | stored frame and mask are resized to the layer's size, which must be fixed when either is present; no other field changes |
| Layers.Reload | src/Layer.py:98-115 | a placeholder size takes the picture's own and keeps it unresized; otherwise the size is resolved and the picture resized; a 2-D picture then raises at the channel test; an alpha channel becomes the mask, and without one the mask is untouched |
| Layers.ReloadSettles | src/Layer.py:98-110 | after one reload, reloading the same picture keeps the size |
| Layers.ImageUpdateDimension | src/Layer.py:90-92 | the picture layer's resize is the base resize followed by a reload |
| Layers.AnimatedUpdateDimension | src/Layer.py:132-134 | after the base resize, the layer's size is pushed to the chain's head |
| Layers.UpdateReachesChain | src/Layer.py:132-134 | the pushed size reaches every node above the first rescaling decorator |
| Layers.AnimatedCommand | src/Layer.py:136-137 | the key goes to the chain, and the layer reports what the chain reports |
| Layers.AnimatedReset | src/Layer.py:139-141 | a reset pushes the size down, then resets the chain, failing exactly when either step fails |
| Layers.SetProvider | src/Layer.py:128-130 | installing a chain resets it |
| Layers.Adopt | src/Layer.py:170-174 | a negative stored side is replaced by the frame's own, only when a frame is present |
| Layers.WorkerStep | src/Layer.py:161-176 | the worker fails exactly when the chain does and keeps the advanced chain |
| Layers.WorkerExhaustion | src/Layer.py:166-168 | an exhausted chain stops the worker and negates the level, keeping its magnitude, and writes nothing |
| Layers.WorkerPublishes | src/Layer.py:169-176 | a delivered triple is published as is, and a real frame replaces any negative side by its own size |
| Slices.Strided | src/pyfakewebcam/pyfakewebcam.py:83-84 | the read `s[start::step]` has len(range) elements, element k being s[start + step * k] |
| Slices.Assign | src/pyfakewebcam/pyfakewebcam.py:82-84 | a slice assignment succeeds exactly when the lengths agree or a single value is broadcast, and keeps the row's length |
| Slices.AssignThenRead | src/pyfakewebcam/pyfakewebcam.py:82-84 | reading back an assigned slice gives the assigned values, and positions off the slice keep theirs |
| Encoder.FormatOf | src/pyfakewebcam/pyfakewebcam.py:40-55 | a code selects a format only if it is that format's code |
| Encoder.FormatCodes | src/pyfakewebcam/pyfakewebcam.py:40-55 | each of the seven formats is selected by its own code, and the codes are the kernel's fourcc values |
| Encoder.Packed | src/pyfakewebcam/pyfakewebcam.py:43-53 | 2, 3 or 4 bytes per pixel |
| Encoder.U32 | src/pyfakewebcam/pyfakewebcam.py:33-34 | an unsigned 32-bit field keeps values in range and truncates others |
| Encoder.Open | src/pyfakewebcam/pyfakewebcam.py:18-57 | construction fails exactly for channels other than 3, a missing device, or a code whose stored 32-bit value names no supported format; otherwise the settings and a zeroed buffer of height rows of k * width bytes are set |
| Encoder.OpenReadsStoredCode | src/pyfakewebcam/pyfakewebcam.py:32-55 | codes that agree modulo 2^32 open the same device, and a device opens exactly when the code modulo 2^32 is one of the seven format codes |
| Encoder.GeometryIsExact | src/pyfakewebcam/pyfakewebcam.py:43-53 | bytes per line is k * width and image size k * width * height, which is exactly the buffer's byte count, whenever they fit in 32 bits |
| Encoder.LumaFacts | src/pyfakewebcam/pyfakewebcam.py:81 | the rescale is monotone, never overflows 16 bits, and maps 0 to 16 and 255 to 251 |
| Encoder.PackRowFits | src/pyfakewebcam/pyfakewebcam.py:79-121 | a row packs exactly when numpy accepts every slice shape |
| Encoder.RowFitsExactly | src/pyfakewebcam/pyfakewebcam.py:79-99 | RGB formats take any width; 4:2:2 formats need an even width, except that one pixel still packs in YUYV and YVYU |
| Encoder.PackRowLayout | src/pyfakewebcam/pyfakewebcam.py:79-121 | every byte of a packed row is the documented layout byte |
| Encoder.LayoutYuyv | src/pyfakewebcam/pyfakewebcam.py:79-84 | byte 4q+r is Y of pixel 2q, U of 2q, Y of 2q+1, V of 2q for r = 0..3 |
| Encoder.LayoutYvyu | src/pyfakewebcam/pyfakewebcam.py:85-91 | as YUYV with U and V swapped |
| Encoder.LayoutYyuv | src/pyfakewebcam/pyfakewebcam.py:92-99 | byte 4q+r is Y of 2q, Y of 2q+1, U of 2q, V of 2q |
| Encoder.LayoutBgr24 | src/pyfakewebcam/pyfakewebcam.py:100-104 | byte 3c+i is channel i of pixel c |
| Encoder.LayoutRgb24 | src/pyfakewebcam/pyfakewebcam.py:105-109 | byte 3c+i is channel 2-i of pixel c |
| Encoder.LayoutYuv32 | src/pyfakewebcam/pyfakewebcam.py:110-116 | bytes 4c+1..4c+3 are Y, U, V of pixel c; byte 4c keeps its value |
| Encoder.LayoutRgb32 | src/pyfakewebcam/pyfakewebcam.py:117-121 | bytes 4c+1..4c+3 are R, G, B of pixel c; byte 4c keeps its value |
| Encoder.PackAllRows | src/pyfakewebcam/pyfakewebcam.py:95-99 | when every row fits, the frame loop packs each row on its own |
| Encoder.FlattenAt | src/pyfakewebcam/pyfakewebcam.py:122 | byte j of row i is byte i * n + j of the serialized buffer |
| Encoder.ScheduleFrame | src/pyfakewebcam/pyfakewebcam.py:67-122 | a frame of the wrong height, width or channel count, or non-BGR input, is rejected before anything is written, and so is a frame without pixels in the four formats that convert to YUV; on success the settings are kept and the written bytes are the serialized buffer |
| Encoder.ScheduleFrameAccepts | src/pyfakewebcam/pyfakewebcam.py:79-121 | a frame of the configured shape is always accepted in BGR24, RGB24 and RGB32; in the YUV formats it is accepted exactly when it has pixels and, in 4:2:2, an even width or a width of one outside YYUV |
| Encoder.ScheduleFrameLayout | src/pyfakewebcam/pyfakewebcam.py:79-122 | an accepted frame has pixels in the YUV formats and writes exactly height * k * width bytes, in the documented layout; a YUYV or YVYU row one pixel wide holds that pixel's luma and its first chroma sample (U for YUYV, V for YVYU) |
| Encoder.PadStaysZero | src/pyfakewebcam/pyfakewebcam.py:110-121 | byte 0 of every four-byte pixel is never written, so it stays zero |
| Encoder.OpenPadZero | src/pyfakewebcam/pyfakewebcam.py:50-53 | a new device's buffer starts with zero pad bytes |
| Caman.InitialIsGood | caman.py:71-101 | the loop starts unpaused with two dilation passes, satisfying its invariant |
| Caman.Pick | caman.py:107-118 | live: the camera's frame, or the end of the loop once it has stopped; paused: the frame at L-1-idx, with the cursor stepped |
| Caman.HandleKey | caman.py:179-189 | Escape and only Escape quits; only space touches history, replay and cursor; pausing freezes the history with cursor (1, 0) |
| Caman.KeysToggleOneFlag | caman.py:190-201 | each switch key negates exactly its own flag; every other key leaves all flags alone |
| Caman.DilateStaysPositive | caman.py:101-207 | '+' adds a pass, '-' removes one but never the last, other keys keep the count, so it stays at least 1 |
| Caman.SpaceTwice | caman.py:182-189 | pausing and unpausing restores the switches and leaves no replay |
| Caman.Pace | caman.py:211-217 | live: no wait; paused: a non-negative wait with a valid cursor, a failure on a replay shorter than two frames |
| Caman.Tick | caman.py:103-217 | the loop ends when the camera stops while live; a continuing iteration did not read Escape and has just recorded the current time |
| Caman.TickKeepsGood | caman.py:103-217 | an iteration keeps the invariant and leaves only frames younger than two seconds; its only failure is pausing on a history of a single frame |
| Caman.PausedFollowsTriangle | caman.py:112-118 | while paused, the n-th iteration shows the frame at the n-th position of the triangle wave, from the newest end |

## Left out

- Desktop and command-line sources: a screen grab and a subprocess, both outside the model.
- Threads and locks: `AnimatedLayer.start`, `pause`, `resume`, `stop` and the worker loop itself. One worker iteration is modelled as one atomic step.
- Sleeping and pacing: the rate limiter, the GIF and video frame timing, and the boomerang's replay wait. The timestamps the waits are computed from are read, so an index error in them is kept; the wait itself is not modelled.
- The video container's frame rate: the video reset computes `1 / fps` of the container, which raises for a rate of zero. The container is modelled only by its frames and size.
- The segmentation service (`getMask`, an HTTP request): its mask is a free library term of the frame's size.
- Float masks (`mask / 255`, `1 - mask`, `* 255`): kept as library terms.
- `hologram_effect`: it uses random numbers and float blend weights. The filter applies it as a library term. Its `shift_image` is modelled.
- The main loop's image pipeline: smoothing, duplication, segmentation, dilation, compositing, preview and output.
- The GTK window and the scene configuration.
- Device and OS I/O: `os.open`, `ioctl`, `os.write` (a short write is not modelled), `print_capabilities`, and the existence test of the device node, which is a boolean parameter.
- Providers.SetParams: a source handed a `provider` option would store it and forward later key presses to it; the model's sources have no child.
- Encoder.ScheduleFrame: rows packed before a row that does not fit stay written in the buffer when the exception is raised; the model returns the error with the device unchanged.
- Layers.SetParams: an attribute read before it was ever set raises in Python; the model's layer always has every field.
- Sources.Next: the camera's mask is always None, so the resize of it is dead code and not modelled. The camera device is opened on first use; this is not modelled as it does not change what is read.
- Sources.Next: a relay whose layer holds a mask but no frame returns the layer's (mask, complement) pair unresized, and the worker's `writeMask` then raises dividing that pair by 255. The model carries one mask image per output, so it returns the mask alone and this failure is not modelled.
- Scroller.Layout: the padding truncates the exact product of width and percentage. Python truncates the rounded float product, so `int(100 * 0.29)` gives 28 where the model gives 29. The default percentage 0.5 is exact.
- Sources.Next: for a video frame without a channel axis, a size computed from one stored side is kept before the alpha test raises. The model returns the error with the source unchanged.
- Layers.Reload: the stored size is updated before the channel test raises for a 2-D picture. The model returns the error with the layer unchanged.
- A picture file that cannot be decoded: `cv2.imread` returns None and reading its shape raises, in the picture source's reset and in the picture layer's reload. The model's picture is always a decoded image.
- The frame-rate print of the main loop: `1 / (time.time() - t)` raises when the clock has not advanced within an iteration. Printing is output and is not modelled.
- Providers.Segmented: only the geometry of the segmentation mask is stated, since its values come from the service.
- Caman.Tick: the frame shown and sent is not modelled, only the state the loop carries to the next iteration.
- Providers.Next: its own contract states only the chain's shape. What each decorator returns is stated by the lemmas about it: FilterParity, OnPressToggles, LooperCycles, FrequencyPassesThrough, ShiftFillsWindow and the Replay lemmas.
- Providers.Command: its own contract states only depth and the unclaimed case. Who claims a key and what changes is stated by Providers.CommandClaims and Providers.CommandDispatch.
- Shifting.ShiftImage: its own contract states only the shape. The pixels are stated by Shifting.ShiftImageReads.
- Replay.Step: its own contract states the recording and the inactive case. The active and stopping phases are stated by Replay.StepActive and Replay.StepTransition.
- Layers.WorkerStep: its own contract states only failure and the advanced chain. What is published is stated by Layers.WorkerExhaustion and Layers.WorkerPublishes.

=== FILE: arith.dfy ===
/** Facts about Euclidean division that the index arithmetic of the model
    relies on. For a positive divisor Dafny's `%` agrees with Python's. */
module Arith {

  /** Division by a positive `m` is determined by any decomposition
      `a == m * q + r` with `0 <= r < m`. */
  lemma DivModUnique(a: int, m: int, q: int, r: int)
    requires m > 0 && 0 <= r < m && a == m * q + r
    ensures a / m == q && a % m == r
  {
    var q0, r0 := a / m, a % m;
    assert a == m * q0 + r0;
    if q0 < q {
      assert m * (q - q0) >= m by { MulAtLeast(m, q - q0); }
      assert false;
    } else if q0 > q {
      assert m * (q0 - q) >= m by { MulAtLeast(m, q0 - q); }
      assert false;
    }
  }

  lemma MulAtLeast(m: int, k: int)
    requires m > 0 && k >= 1
    ensures m * k >= m
  {
  }

  /** Adding a multiple of `m` does not change the remainder. */
  lemma ModAddMultiple(a: int, k: int, m: int)
    requires m > 0
    ensures (a + m * k) % m == a % m
  {
    DivModUnique(a + m * k, m, a / m + k, a % m);
  }

  /** The remainder of `a + j` from the remainder of `a`, for `0 <= j < m`. */
  lemma ModAddSmall(a: int, j: int, m: int)
    requires m > 0 && 0 <= j < m
    ensures (a + j) % m == if a % m + j < m then a % m + j else a % m + j - m
  {
    if a % m + j < m {
      DivModUnique(a + j, m, a / m, a % m + j);
    } else {
      DivModUnique(a + j, m, a / m + 1, a % m + j - m);
    }
  }

  /** The remainder of `j - a` from the remainder of `a`, for `0 <= j < m`. */
  lemma ModSubSmall(j: int, a: int, m: int)
    requires m > 0 && 0 <= j < m
    ensures (j - a) % m == if j >= a % m then j - a % m else j - a % m + m
  {
    if j >= a % m {
      DivModUnique(j - a, m, -(a / m), j - a % m);
    } else {
      DivModUnique(j - a, m, -(a / m) - 1, j - a % m + m);
    }
  }

  /** Scaling by a factor and dividing by it again gives the value back. */
  lemma MulDivCancel(a: int, m: int)
    requires m > 0
    ensures a * m / m == a
  {
    DivModUnique(a * m, m, a, 0);
  }
}

=== FILE: caman.dfy ===
/** The pure parts of the stand-alone main loop: choosing the frame to show
    (live, or replayed back and forth while paused), keeping two seconds of
    history, and the keyboard switches. The image pipeline between them
    (smoothing, segmentation, compositing, output) is left out. */
module Caman {
  import opened Outcomes
  import opened Images
  import opened History
  import PingPong

  /** The seven switches of the loop. */
  datatype Flags = Flags(pause: bool, gaussian: bool, duplicate: bool, people: bool,
                         invert: bool, hologram: bool, desktop: bool)

  /** The switches as the loop starts: smoothing and segmentation on. */
  const InitialFlags: Flags := Flags(false, true, false, true, false, false, false)

  /** Seconds of history kept for a replay. */
  const HistoryLength: real := 2.0

  datatype Loop = Loop(
    flags: Flags,
    dilate: int,                    // dilation passes applied to the mask
    history: seq<Entry<Image>>,     // recent frames, oldest first
    replay: seq<Entry<Image>>,      // the history frozen by the last pause
    cursor: PingPong.Cursor)

  const Initial: Loop := Loop(InitialFlags, 2, [], [], PingPong.Start)

  /** What the loop relies on between iterations: at least one dilation
      pass, a valid replay cursor while paused, and an ordered history. */
  ghost predicate Good(s: Loop) {
    && s.dilate >= 1
    && (s.flags.pause ==> PingPong.Inv(s.cursor, |s.replay|))
    && Sorted(s.history)
  }

  lemma InitialIsGood()
    ensures Good(Initial) && !Initial.flags.pause && Initial.dilate == 2
  {
  }

  // ---------------------------------------------------------------- one iteration

  /** The frame of this iteration: the camera's while live (None once the
      camera has stopped, which ends the loop), or the next replayed frame
      while paused, counted from the newest end of the frozen history. */
  function Pick(s: Loop, camera: Option<Image>): (r: Result<Option<(Loop, Image)>>)
    ensures !s.flags.pause ==> r == Ok(if camera.Some? then Some((s, camera.value)) else None)
    ensures s.flags.pause && PingPong.Inv(s.cursor, |s.replay|) ==>
              r.Ok? && r.value.Some? &&
              r.value.value.1 == s.replay[|s.replay| - 1 - s.cursor.idx].item &&
              r.value.value.0 == s.(cursor := PingPong.Step(s.cursor, |s.replay|))
  {
    if !s.flags.pause then
      if camera.None? then Ok(None) else Ok(Some((s, camera.value)))
    else
      var e :- PyGet(s.replay, |s.replay| - 1 - s.cursor.idx);
      Ok(Some((s.(cursor := PingPong.Step(s.cursor, |s.replay|)), e.item)))
  }

  /** Flag n of the seven, in declaration order. */
  function Flag(f: Flags, n: nat): bool {
    match n
    case 0 => f.pause
    case 1 => f.gaussian
    case 2 => f.duplicate
    case 3 => f.people
    case 4 => f.invert
    case 5 => f.hologram
    case 6 => f.desktop
    case _ => false
  }

  /** The flag a key switches: space, g, d, p, i, h and Enter. */
  function KeyFlag(key: int): Option<nat> {
    if key == ' ' as int then Some(0)
    else if key == 'g' as int then Some(1)
    else if key == 'd' as int then Some(2)
    else if key == 'p' as int then Some(3)
    else if key == 'i' as int then Some(4)
    else if key == 'h' as int then Some(5)
    else if key == 13 then Some(6)
    else None
  }

  const Escape: int := 27

  /** The key handling at the end of an iteration: whether the loop quits,
      and the state afterwards. Pausing freezes the current history and
      starts the cursor at its second-newest frame. */
  function HandleKey(s: Loop, key: int): (r: (bool, Loop))
    ensures r.0 <==> key == Escape
    ensures key != ' ' as int ==> r.1.history == s.history && r.1.replay == s.replay && r.1.cursor == s.cursor
    ensures key == ' ' as int && !s.flags.pause ==>
              r.1.flags.pause && r.1.replay == s.history && r.1.cursor == PingPong.Start
  {
    var f := s.flags;
    if key == Escape then (true, s)
    else if key == ' ' as int then
      if !f.pause then (false, s.(flags := f.(pause := true), cursor := PingPong.Start, replay := s.history))
      else (false, s.(flags := f.(pause := false), replay := []))
    else if key == 'g' as int then (false, s.(flags := f.(gaussian := !f.gaussian)))
    else if key == 'd' as int then (false, s.(flags := f.(duplicate := !f.duplicate)))
    else if key == 'p' as int then (false, s.(flags := f.(people := !f.people)))
    else if key == 'i' as int then (false, s.(flags := f.(invert := !f.invert)))
    else if key == 'h' as int then (false, s.(flags := f.(hologram := !f.hologram)))
    else if key == 13 then (false, s.(flags := f.(desktop := !f.desktop)))
    else if key == '+' as int then (false, s.(dilate := s.dilate + 1))
    else if key == '-' as int then (false, s.(dilate := if s.dilate - 1 > 1 then s.dilate - 1 else 1))
    else (false, s)
  }

  /** Each switch key negates exactly its own flag and leaves every other
      flag and the dilation count alone; every other key leaves all flags
      alone. */
  lemma KeysToggleOneFlag(s: Loop, key: int, n: nat)
    requires n < 7
    ensures var s' := HandleKey(s, key).1;
            && Flag(s'.flags, n) == (Flag(s.flags, n) != (KeyFlag(key) == Some(n)))
            && (KeyFlag(key).Some? ==> s'.dilate == s.dilate)
  {
  }

  /** '+' adds a dilation pass and '-' removes one but never the last, so
      the count stays at least one; no other key changes it. */
  lemma DilateStaysPositive(s: Loop, key: int)
    requires s.dilate >= 1
    ensures var d := HandleKey(s, key).1.dilate;
            && d >= 1
            && (key == '+' as int ==> d == s.dilate + 1)
            && (key == '-' as int ==> d == if s.dilate > 1 then s.dilate - 1 else 1)
            && (key != '+' as int && key != '-' as int ==> d == s.dilate)
  {
  }

  /** Space twice restores the switches, and leaves the replay empty. */
  lemma SpaceTwice(s: Loop)
    requires !s.flags.pause
    ensures var s2 := HandleKey(HandleKey(s, ' ' as int).1, ' ' as int).1;
            s2.flags == s.flags && s2.replay == [] && s2.history == s.history
  {
  }

  /** The pacing read after the key handling: while paused the loop waits
      for the time between the two frames the cursor now points at, and
      reading them fails when the replay is too short. */
  function Pace(s: Loop): (r: Result<real>)
    ensures !s.flags.pause ==> r == Ok(0.0)
    ensures s.flags.pause && PingPong.Inv(s.cursor, |s.replay|) ==> r.Ok? && r.value >= 0.0
    ensures s.flags.pause && |s.replay| < 2 && s.cursor == PingPong.Start ==> r.Err?
  {
    if !s.flags.pause then Ok(0.0)
    else
      var a :- PyGet(s.replay, s.cursor.idx);
      var b :- PyGet(s.replay, s.cursor.last);
      var d := a.time - b.time;
      Ok(if d >= 0.0 then d else -d)
  }

  /** One iteration at time `now`, with the camera's frame (None once it has
      stopped) and the key read at its end. The result is None when the
      loop ends. */
  function Tick(s: Loop, now: real, camera: Option<Image>, key: int): (r: Result<Option<Loop>>)
    ensures !s.flags.pause && camera.None? ==> r == Ok(None)
    ensures r.Ok? && r.value.Some? ==> key != Escape
    ensures r.Ok? && r.value.Some? ==>
              var h := r.value.value.history; |h| > 0 && h[|h| - 1].time == now
  {
    var picked :- Pick(s, camera);
    match picked
    case None => Ok(None)
    case Some((s1, frame)) =>
      var h :- Record(s1.history, frame, HistoryLength, now);
      AfterRecord(s1.(history := h), key)
  }

  /** An iteration that does not end the loop keeps the loop's invariant and
      leaves only frames younger than two seconds in the history, provided
      the clock does not run backwards. The only failure is pausing while
      the history holds a single frame. */
  lemma TickKeepsGood(s: Loop, now: real, camera: Option<Image>, key: int)
    requires Good(s)
    requires forall i | 0 <= i < |s.history| :: s.history[i].time <= now
    ensures var r := Tick(s, now, camera, key);
            && (r.Ok? && r.value.Some? ==>
                  Good(r.value.value) && Fresh(r.value.value.history, HistoryLength, now))
            && (r.Err? <==>
                  && !s.flags.pause && camera.Some? && key == ' ' as int
                  && |Record(s.history, camera.value, HistoryLength, now).value| < 2)
  {
    if s.flags.pause || camera.Some? {
      var (s1, frame) := Pick(s, camera).value.value;
      assert s1.history == s.history && s1.flags == s.flags && s1.dilate == s.dilate;
      assert s.flags.pause ==> PingPong.Inv(s1.cursor, |s1.replay|);
      RecordKeepsFresh(s1.history, frame, HistoryLength, now);
      var h := Record(s1.history, frame, HistoryLength, now).value;
      assert !s.flags.pause ==> h == Record(s.history, camera.value, HistoryLength, now).value;
      var s2 := s1.(history := h);
      KeyKeepsGood(s2, key);
      assert Tick(s, now, camera, key) == AfterRecord(s2, key);
    }
  }

  /** The part of an iteration after the frame is recorded. */
  function AfterRecord(s: Loop, key: int): Result<Option<Loop>> {
    var (quit, s2) := HandleKey(s, key);
    if quit then Ok(None)
    else
      var _ :- Pace(s2);
      Ok(Some(s2))
  }

  /** The key handling followed by the pacing read, on a state whose
      history is already recorded: it keeps the invariant, and fails only
      when it pauses on a single frame. */
  lemma KeyKeepsGood(s: Loop, key: int)
    requires Good(s)
    ensures var (quit, s2) := HandleKey(s, key);
            && s2.history == s.history
            && (!quit ==> (Pace(s2).Err? <==> !s.flags.pause && key == ' ' as int && |s.history| < 2))
            && (!quit && Pace(s2).Ok? ==> Good(s2))
  {
    KeysToggleOneFlag(s, key, 0);
    DilateStaysPositive(s, key);
  }

  /** While paused, the n-th iteration after the pause shows the frame at
      the n-th position of the triangle wave, counted from the newest end of
      the frozen history. */
  lemma {:induction false} PausedFollowsTriangle(s: Loop, camera: Option<Image>, n: nat)
    requires s.flags.pause && |s.replay| >= 2
    requires s.cursor == PingPong.Iterate(PingPong.Start, |s.replay|, n)
    ensures var L := |s.replay|;
            var r := Pick(s, camera);
            r.Ok? && r.value.Some? &&
            r.value.value.1 == s.replay[L - 1 - PingPong.Tri(n, L)].item &&
            r.value.value.0.cursor == PingPong.Iterate(PingPong.Start, L, n + 1)
  {
    var L := |s.replay|;
    PingPong.IterateKeepsInv(L, n);
    PingPong.ClosedForm(L, n);
  }
}

=== FILE: dimension.dfy ===
/** The `-1` size convention that every frame source repeats: a stored
    dimension that is not positive means "take it from the frame". */
module Dimension {
  import opened Outcomes
  import opened Images
  import Arith

  /** A stored (width, height) pair; non-positive entries are placeholders. */
  datatype Dims = Dims(width: int, height: int)

  /** The placeholder pair that decorators pass to children they rescale. */
  const Unset: Dims := Dims(-1, -1)

  /** Both entries are placeholders: frames pass at their native size. */
  predicate Native(d: Dims) {
    d.width <= 0 && d.height <= 0
  }

  /** Both entries are real sizes. */
  predicate Fixed(d: Dims) {
    d.width > 0 && d.height > 0
  }

  /** Fills in the one placeholder of a one-sided pair from a frame of
      native size nw x nh, keeping the aspect ratio with floor division. */
  function Resolve(d: Dims, nw: Pos, nh: Pos): Dims {
    if d.width > 0 && d.height > 0 then d
    else if d.width > 0 then Dims(d.width, d.width * nh / nw)
    else if d.height > 0 then Dims(d.height * nw / nh, d.height)
    else d
  }

  /** The resolution block of a source's `next`: returns the stored pair
      afterwards and the frame, resized unless both entries are placeholders. */
  function ResolveFrame(d: Dims, f: Image): (r: Result<(Dims, Image)>)
    ensures Native(d) ==> r == Ok((d, f))
    ensures Fixed(d) ==> r.Ok? && r.value.0 == d
    ensures d.width > 0 && d.height <= 0 && r.Ok? ==>
              r.value.0 == Dims(d.width, d.width * f.height / f.width)
    ensures d.width <= 0 && d.height > 0 && r.Ok? ==>
              r.value.0 == Dims(d.height * f.width / f.height, d.height)
    ensures r.Ok? && !Native(d) ==> Fixed(r.value.0) && r.value.1.Valid()
    ensures r.Ok? && !Native(d) ==>
              r.value.1.width == r.value.0.width && r.value.1.height == r.value.0.height
    ensures r.Ok? ==> r.value.1.depth == f.depth
  {
    if Native(d) then Ok((d, f))
    else
      var d' := Resolve(d, f.width, f.height);
      var g :- Resize(f, d'.width, d'.height);
      Ok((d', g))
  }

  /** The same block where an optional mask is resized with the frame. */
  function ResolveFrameMask(d: Dims, f: Image, m: Option<Image>): (r: Result<(Dims, Image, Option<Image>)>)
    ensures Native(d) ==> r == Ok((d, f, m))
    ensures r.Ok? ==> ResolveFrame(d, f).Ok? && r.value.0 == ResolveFrame(d, f).value.0
    ensures r.Ok? ==> r.value.1 == ResolveFrame(d, f).value.1
    ensures r.Ok? ==> (r.value.2.Some? <==> m.Some?)
    ensures r.Ok? && !Native(d) && m.Some? ==>
              r.value.2.value.width == r.value.1.width && r.value.2.value.height == r.value.1.height
  {
    var (d', g) :- ResolveFrame(d, f);
    if Native(d) then Ok((d', g, m))
    else
      var m' :- ResizeOpt(m, d'.width, d'.height);
      Ok((d', g, m'))
  }

  /** The reset of the GIF and video sources as written: its guard tests
      the width twice, so a non-positive width alone selects the native size. */
  function ResetDims(d: Dims, nw: Pos, nh: Pos): (r: Dims)
    ensures d.width <= 0 ==> r == Dims(nw, nh)
    ensures d.width > 0 ==> r == Resolve(d, nw, nh)
  {
    if d.width <= 0 && d.width <= 0 then Dims(nw, nh)
    // the width is positive from here on, so the height branch is dead
    else if d.height > 0 then d
    else Dims(d.width, d.width * nh / nw)
  }

  /** Once a pair has been resolved, resolving it again for any later frame
      changes nothing and yields a frame of exactly that size. */
  lemma ResolvedIsStable(d: Dims, f: Image, g: Image)
    requires ResolveFrame(d, f).Ok? && !Native(d)
    ensures var d' := ResolveFrame(d, f).value.0;
            ResolveFrame(d', g).Ok? && ResolveFrame(d', g).value.0 == d'
            && ResolveFrame(d', g).value.1.width == d'.width
            && ResolveFrame(d', g).value.1.height == d'.height
  {
  }

  /** A one-sided resolution keeps the aspect ratio up to rounding down:
      the filled-in height is the largest h with h * nw <= width * nh. */
  lemma {:induction false} ResolveKeepsAspect(d: Dims, nw: Pos, nh: Pos)
    requires d.width > 0 && d.height <= 0
    ensures var h := Resolve(d, nw, nh).height;
            h * nw <= d.width * nh < (h + 1) * nw
  {
    var h := d.width * nh / nw;
    assert d.width * nh == nw * h + d.width * nh % nw;
  }

  /** The one-sided resolution fails exactly when rounding down makes the
      filled-in entry zero, which cv2.resize rejects. */
  lemma ResolveFailsWhenRoundedToZero(d: Dims, f: Image)
    requires d.width > 0 && d.height <= 0
    ensures ResolveFrame(d, f).Err? <==> d.width * f.height < f.width
  {
    var h := d.width * f.height / f.width;
    assert d.width * f.height == f.width * h + d.width * f.height % f.width;
    if h > 0 {
      assert f.width * h >= f.width by { Arith.MulAtLeast(f.width, h); }
    }
  }

  /** The reset as written loses an explicit height whenever the width is a
      placeholder, where the resolution rule of `next` would keep it. */
  lemma ResetDropsExplicitHeight(d: Dims, nw: Pos, nh: Pos)
    requires d.width <= 0 && d.height > 0 && d.height != nh
    ensures ResetDims(d, nw, nh).height != d.height
    ensures Resolve(d, nw, nh).height == d.height
  {
  }
}

=== FILE: encoder.dfy ===
/** The fake-webcam frame encoder: it selects one of seven V4L2 output
    formats, fixes the geometry of the output buffer, and packs each BGR
    frame into that buffer before writing the whole buffer to the device.
    The byte layouts are those of the packed YUV 4:2:2 formats (YUYV, YVYU,
    YYUV) and the packed RGB formats (BGR24, RGB24, RGB32, YUV32) of the
    Linux V4L2 pixel-format documentation. */
module Encoder {
  import opened Outcomes
  import opened Slices
  import Arith

  type Byte = b: int | 0 <= b < 256

  // ---------------------------------------------------------------- formats

  datatype Format = YUYV | YVYU | YYUV | BGR24 | RGB24 | RGB32 | YUV32

  /** v4l2_fourcc(a, b, c, d): the four characters, least significant first. */
  function FourCC(a: char, b: char, c: char, d: char): int {
    a as int + b as int * 0x100 + c as int * 0x1_0000 + d as int * 0x100_0000
  }

  /** The pixel-format code of each supported format. */
  function Code(f: Format): int {
    match f
    case YUYV => FourCC('Y', 'U', 'Y', 'V')
    case YVYU => FourCC('Y', 'V', 'Y', 'U')
    case YYUV => FourCC('Y', 'Y', 'U', 'V')
    case BGR24 => FourCC('B', 'G', 'R', '3')
    case RGB24 => FourCC('R', 'G', 'B', '3')
    case RGB32 => FourCC('R', 'G', 'B', '4')
    case YUV32 => FourCC('Y', 'U', 'V', '4')
  }

  /** The format a requested code selects; any other code is unsupported. */
  function FormatOf(code: int): (r: Option<Format>)
    ensures r.Some? ==> Code(r.value) == code
  {
    if code == Code(YUYV) then Some(YUYV)
    else if code == Code(YVYU) then Some(YVYU)
    else if code == Code(YYUV) then Some(YYUV)
    else if code == Code(BGR24) then Some(BGR24)
    else if code == Code(RGB24) then Some(RGB24)
    else if code == Code(RGB32) then Some(RGB32)
    else if code == Code(YUV32) then Some(YUV32)
    else None
  }

  /** Every supported format is selected by its own code and by no other:
      the seven codes are distinct, and they are the numbers the kernel
      headers define. */
  lemma FormatCodes(f: Format)
    ensures FormatOf(Code(f)) == Some(f)
    ensures Code(YUYV) == 0x5659_5559 && Code(YVYU) == 0x5559_5659 && Code(YYUV) == 0x5655_5959
    ensures Code(BGR24) == 0x3352_4742 && Code(RGB24) == 0x3342_4752
    ensures Code(RGB32) == 0x3442_4752 && Code(YUV32) == 0x3456_5559
  {
  }

  /** Bytes per pixel in the output buffer. */
  function Packed(f: Format): (k: nat)
    ensures 2 <= k <= 4
  {
    match f
    case YUYV => 2
    case YVYU => 2
    case YYUV => 2
    case BGR24 => 3
    case RGB24 => 3
    case RGB32 => 4
    case YUV32 => 4
  }

  predicate Is422(f: Format) {
    f == YUYV || f == YVYU || f == YYUV
  }

  /** The formats whose branch first converts the whole frame to YUV. */
  predicate ConvertsToYuv(f: Format) {
    Is422(f) || f == YUV32
  }

  // ---------------------------------------------------------------- device setup

  const U32Modulus: int := 0x1_0000_0000

  /** Storing into an unsigned 32-bit field of the format structure keeps
      the low 32 bits. */
  function U32(x: int): (r: int)
    ensures 0 <= r < U32Modulus
    ensures 0 <= x < U32Modulus ==> r == x
  {
    x % U32Modulus
  }

  /** The pixel-format part of the structure handed to the driver. */
  datatype Settings = Settings(format: Format, width: int, height: int, bytesPerLine: int, sizeImage: int)

  /** An open device: its settings, the input channel count and pixel
      order, and the output buffer that persists between frames. */
  datatype Webcam = Webcam(settings: Settings, channels: int, inputFormat: string, buffer: seq<seq<Byte>>) {

    /** The buffer has `height` rows of `k * width` bytes. */
    predicate Good() {
      && channels == 3 && settings.width >= 0
      && |buffer| == settings.height
      && forall r | 0 <= r < |buffer| :: |buffer[r]| == Packed(settings.format) * settings.width
    }
  }

  /** The constructor: only three-channel input is accepted, the device node
      must exist, and the format must be one of the seven. The format is
      read back from the stored 32-bit field; byte counts are computed from
      the arguments, the buffer from the stored fields. */
  function Open(deviceExists: bool, width: int, height: int, channels: int,
                inputFormat: string, code: int): (r: Result<Webcam>)
    ensures r.Ok? <==> channels == 3 && deviceExists && FormatOf(U32(code)).Some?
    ensures channels != 3 ==> r == Err(Unsupported)
    ensures channels == 3 && !deviceExists ==> r == Err(DeviceMissing)
    ensures channels == 3 && deviceExists && FormatOf(U32(code)).None? ==> r == Err(Unsupported)
    ensures r.Ok? ==> var s := r.value.settings; var k := Packed(s.format);
              && r.value.Good() && s.format == FormatOf(U32(code)).value
              && s.width == U32(width) && s.height == U32(height)
              && s.bytesPerLine == U32(k * width) && s.sizeImage == U32(k * width * height)
              && r.value.inputFormat == inputFormat
    ensures r.Ok? ==> forall i, j | 0 <= i < |r.value.buffer| && 0 <= j < |r.value.buffer[i]| ::
                        r.value.buffer[i][j] == 0
  {
    if channels != 3 then Err(Unsupported)
    else if !deviceExists then Err(DeviceMissing)
    else match FormatOf(U32(code))
      case None => Err(Unsupported)
      case Some(f) =>
        var k := Packed(f);
        var w, h := U32(width), U32(height);
        var buffer := seq(h, _ => seq(k * w, _ => 0 as Byte));
        Ok(Webcam(Settings(f, w, h, U32(k * width), U32(k * width * height)), channels, inputFormat, buffer))
  }

  // ---------------------------------------------------------------- frames

  /** A numpy frame of shape (height, width, channels). */
  datatype Frame = Frame(height: int, width: int, channels: int, px: seq<seq<seq<Byte>>>) {
    predicate Shaped() {
      && |px| == height
      && forall r | 0 <= r < |px| :: |px[r]| == width && forall c | 0 <= c < |px[r]| :: |px[r][c]| == channels
    }
  }

  /** The BGR to YUV colour conversion of one pixel (a library call). */
  type Conv = (Byte, Byte, Byte) -> (Byte, Byte, Byte)

  /** A row of three-channel pixels. */
  predicate Triples(row: seq<seq<Byte>>) {
    forall c | 0 <= c < |row| :: |row[c]| == 3
  }

  /** The row converted to YUV, pixel by pixel. */
  function Converted(row: seq<seq<Byte>>, conv: Conv): (t: seq<(Byte, Byte, Byte)>)
    requires Triples(row)
    ensures |t| == |row|
    ensures forall c | 0 <= c < |row| :: t[c] == conv(row[c][0], row[c][1], row[c][2])
  {
    seq(|row|, c requires 0 <= c < |row| => conv(row[c][0], row[c][1], row[c][2]))
  }

  /** The luma rescale, computed in 16 bits and stored back into 8. */
  function Luma(y: Byte): (r: Byte)
    ensures 16 <= r <= 251
  {
    y * 235 / 255 + 16
  }

  /** The rescale keeps order, never overflows its 16-bit intermediate, and
      reaches 251 — above the studio-swing ceiling of 235. */
  lemma LumaFacts(a: Byte, b: Byte)
    ensures a * 235 < 0x1_0000
    ensures a <= b ==> Luma(a) <= Luma(b)
    ensures Luma(0) == 16 && Luma(255) == 251
  {
    if a <= b {
      assert a * 235 <= b * 235;
    }
  }

  function Channel(row: seq<seq<Byte>>, i: nat): (r: seq<Byte>)
    requires Triples(row) && i < 3
    ensures |r| == |row| && forall c | 0 <= c < |row| :: r[c] == row[c][i]
  {
    seq(|row|, c requires 0 <= c < |row| => row[c][i])
  }

  function YPlane(t: seq<(Byte, Byte, Byte)>): (r: seq<Byte>)
    ensures |r| == |t| && forall c | 0 <= c < |t| :: r[c] == Luma(t[c].0)
  {
    seq(|t|, c requires 0 <= c < |t| => Luma(t[c].0))
  }

  function UPlane(t: seq<(Byte, Byte, Byte)>): (r: seq<Byte>)
    ensures |r| == |t| && forall c | 0 <= c < |t| :: r[c] == t[c].1
  {
    seq(|t|, c requires 0 <= c < |t| => t[c].1)
  }

  function VPlane(t: seq<(Byte, Byte, Byte)>): (r: seq<Byte>)
    ensures |r| == |t| && forall c | 0 <= c < |t| :: r[c] == t[c].2
  {
    seq(|t|, c requires 0 <= c < |t| => t[c].2)
  }

  // ---------------------------------------------------------------- packing

  /** The three slice assignments of a YUYV or YVYU row: luma to every
      second byte, then the two halved chroma planes to bytes 1 and 3 of
      every four. */
  function Interleaved(prev: seq<Byte>, ys: seq<Byte>, c1: seq<Byte>, c2: seq<Byte>): (r: Result<seq<Byte>>)
    ensures r.Ok? <==> SliceFits(|prev|, 0, 2, |ys|) && SliceFits(|prev|, 1, 4, |c1|) && SliceFits(|prev|, 3, 4, |c2|)
    ensures r.Ok? ==> |r.value| == |prev|
  {
    var b1 :- Assign(prev, 0, 2, ys);
    var b2 :- Assign(b1, 1, 4, c1);
    Assign(b2, 3, 4, c2)
  }

  /** The four slice assignments of a YYUV row: one plane to each byte of
      every four. */
  function Quartered(prev: seq<Byte>, a: seq<Byte>, b: seq<Byte>, c: seq<Byte>, d: seq<Byte>): (r: Result<seq<Byte>>)
    ensures r.Ok? <==> SliceFits(|prev|, 0, 4, |a|) && SliceFits(|prev|, 1, 4, |b|)
                       && SliceFits(|prev|, 2, 4, |c|) && SliceFits(|prev|, 3, 4, |d|)
    ensures r.Ok? ==> |r.value| == |prev|
  {
    var b1 :- Assign(prev, 0, 4, a);
    var b2 :- Assign(b1, 1, 4, b);
    var b3 :- Assign(b2, 2, 4, c);
    Assign(b3, 3, 4, d)
  }

  /** The slice assignments of one buffer row, in the order the encoder
      performs them for each format. */
  function PackRow(f: Format, prev: seq<Byte>, row: seq<seq<Byte>>, conv: Conv): (r: Result<seq<Byte>>)
    requires Triples(row)
    ensures r.Ok? ==> |r.value| == |prev|
  {
    var t := Converted(row, conv);
    match f
    case YUYV => Interleaved(prev, YPlane(t), Strided(UPlane(t), 0, 2), Strided(VPlane(t), 0, 2))
    case YVYU => Interleaved(prev, YPlane(t), Strided(VPlane(t), 0, 2), Strided(UPlane(t), 0, 2))
    case YYUV =>
      Quartered(prev, Strided(YPlane(t), 0, 2), Strided(YPlane(t), 1, 2), Strided(UPlane(t), 0, 2), Strided(VPlane(t), 0, 2))
    case BGR24 =>
      var b1 :- Assign(prev, 0, 3, Channel(row, 0));
      var b2 :- Assign(b1, 1, 3, Channel(row, 1));
      Assign(b2, 2, 3, Channel(row, 2))
    case RGB24 =>
      var b1 :- Assign(prev, 0, 3, Channel(row, 2));
      var b2 :- Assign(b1, 1, 3, Channel(row, 1));
      Assign(b2, 2, 3, Channel(row, 0))
    case YUV32 =>
      var b1 :- Assign(prev, 1, 4, YPlane(t));
      var b2 :- Assign(b1, 2, 4, UPlane(t));
      Assign(b2, 3, 4, VPlane(t))
    case RGB32 =>
      var b1 :- Assign(prev, 1, 4, Channel(row, 2));
      var b2 :- Assign(b1, 2, 4, Channel(row, 1));
      Assign(b2, 3, 4, Channel(row, 0))
  }

  /** Whether numpy accepts every slice assignment of a row of w pixels. */
  predicate RowFits(f: Format, w: nat) {
    var n := Packed(f) * w;
    var half := Count(w, 0, 2);
    match f
    case YUYV => SliceFits(n, 0, 2, w) && SliceFits(n, 1, 4, half) && SliceFits(n, 3, 4, half)
    case YVYU => SliceFits(n, 0, 2, w) && SliceFits(n, 1, 4, half) && SliceFits(n, 3, 4, half)
    case YYUV => SliceFits(n, 0, 4, half) && SliceFits(n, 1, 4, Count(w, 1, 2))
                 && SliceFits(n, 2, 4, half) && SliceFits(n, 3, 4, half)
    case BGR24 => SliceFits(n, 0, 3, w) && SliceFits(n, 1, 3, w) && SliceFits(n, 2, 3, w)
    case RGB24 => SliceFits(n, 0, 3, w) && SliceFits(n, 1, 3, w) && SliceFits(n, 2, 3, w)
    case YUV32 => SliceFits(n, 1, 4, w) && SliceFits(n, 2, 4, w) && SliceFits(n, 3, 4, w)
    case RGB32 => SliceFits(n, 1, 4, w) && SliceFits(n, 2, 4, w) && SliceFits(n, 3, 4, w)
  }

  /** A row packs exactly when its slice shapes agree. */
  lemma PackRowFits(f: Format, prev: seq<Byte>, row: seq<seq<Byte>>, conv: Conv)
    requires Triples(row) && |prev| == Packed(f) * |row|
    ensures PackRow(f, prev, row, conv).Ok? <==> RowFits(f, |row|)
  {
  }

  /** The shapes agree for every width in the RGB formats; the 4:2:2
      formats need an even width, except that a single pixel still packs in
      YUYV and YVYU because its one chroma value is broadcast. */
  lemma RowFitsExactly(f: Format, w: nat)
    ensures RowFits(f, w) <==> (Is422(f) ==> w % 2 == 0 || (w == 1 && f != YYUV))
  {
  }

  /** Byte j of a packed row, as the pixel-format documentation lays it out.
      The 4:2:2 formats pack pixels 2q and 2q + 1 into bytes 4q to 4q + 3,
      with the chroma of pixel 2q. `prev` is the row before packing; the
      formats with four bytes per pixel leave byte 0 of every pixel as it
      was. */
  function Expected(f: Format, prev: seq<Byte>, row: seq<seq<Byte>>, conv: Conv, j: int): Byte
    requires Triples(row) && |prev| == Packed(f) * |row| && 0 <= j < |prev|
    requires Is422(f) ==> |row| % 2 == 0
  {
    var t := Converted(row, conv);
    match f
    case YUYV =>
      MacroPixel(j, |row|);
      var q, r := j / 4, j % 4;
      if r == 0 then Luma(t[2 * q].0) else if r == 1 then t[2 * q].1
      else if r == 2 then Luma(t[2 * q + 1].0) else t[2 * q].2
    case YVYU =>
      MacroPixel(j, |row|);
      var q, r := j / 4, j % 4;
      if r == 0 then Luma(t[2 * q].0) else if r == 1 then t[2 * q].2
      else if r == 2 then Luma(t[2 * q + 1].0) else t[2 * q].1
    case YYUV =>
      MacroPixel(j, |row|);
      var q, r := j / 4, j % 4;
      if r == 0 then Luma(t[2 * q].0) else if r == 1 then Luma(t[2 * q + 1].0)
      else if r == 2 then t[2 * q].1 else t[2 * q].2
    case BGR24 => row[j / 3][j % 3]
    case RGB24 => row[j / 3][2 - j % 3]
    case YUV32 =>
      if j % 4 == 0 then prev[j]
      else if j % 4 == 1 then Luma(t[j / 4].0)
      else if j % 4 == 2 then t[j / 4].1
      else t[j / 4].2
    case RGB32 => if j % 4 == 0 then prev[j] else row[j / 4][3 - j % 4]
  }

  /** Packing a row produces exactly the documented byte layout. */
  lemma PackRowLayout(f: Format, prev: seq<Byte>, row: seq<seq<Byte>>, conv: Conv)
    requires Triples(row) && |prev| == Packed(f) * |row|
    requires Is422(f) ==> |row| % 2 == 0
    ensures PackRow(f, prev, row, conv).Ok?
    ensures forall j | 0 <= j < |prev| :: PackRow(f, prev, row, conv).value[j] == Expected(f, prev, row, conv, j)
  {
    RowFitsExactly(f, |row|);
    PackRowFits(f, prev, row, conv);
    var r := PackRow(f, prev, row, conv).value;
    forall j | 0 <= j < |prev|
      ensures r[j] == Expected(f, prev, row, conv, j)
    {
      LayoutAt(f, prev, row, conv, j);
    }
  }

  /** One byte of the layout. */
  lemma LayoutAt(f: Format, prev: seq<Byte>, row: seq<seq<Byte>>, conv: Conv, j: int)
    requires Triples(row) && |prev| == Packed(f) * |row| && 0 <= j < |prev|
    requires Is422(f) ==> |row| % 2 == 0
    ensures PackRow(f, prev, row, conv).Ok?
    ensures PackRow(f, prev, row, conv).value[j] == Expected(f, prev, row, conv, j)
  {
    match f
    case YUYV => LayoutYuyv(prev, row, conv, j);
    case YVYU => LayoutYvyu(prev, row, conv, j);
    case YYUV => LayoutYyuv(prev, row, conv, j);
    case BGR24 => LayoutBgr24(prev, row, conv, j);
    case RGB24 => LayoutRgb24(prev, row, conv, j);
    case YUV32 => LayoutYuv32(prev, row, conv, j);
    case RGB32 => LayoutRgb32(prev, row, conv, j);
  }

  /** The chroma slices of a row of w = 2q pixels hold q values each, and
      every 4:2:2 slice of the 4q-byte row selects q or 2q positions. */
  lemma HalfCounts(w: nat)
    requires w % 2 == 0
    ensures Count(w, 0, 2) == w / 2 && Count(w, 1, 2) == w / 2
    ensures Count(2 * w, 0, 2) == w
    ensures Count(2 * w, 0, 4) == w / 2 && Count(2 * w, 1, 4) == w / 2
    ensures Count(2 * w, 2, 4) == w / 2 && Count(2 * w, 3, 4) == w / 2
  {
  }

  /** Byte j of a 4:2:2 row of w pixels is byte j % 4 of macropixel
      j / 4, and lies on exactly the slices that byte offset selects, as
      element j / 4 of the four-byte slices. */
  lemma MacroPixel(j: int, w: nat)
    requires w % 2 == 0 && 0 <= j < 2 * w
    ensures var q, r := j / 4, j % 4;
            && j == 4 * q + r && 0 <= q < w / 2 && 2 * q + 1 < w
            && (OnStride(j, 0, 2) <==> r == 0 || r == 2)
            && (OnStride(j, 0, 4) <==> r == 0) && (OnStride(j, 1, 4) <==> r == 1)
            && (OnStride(j, 2, 4) <==> r == 2) && (OnStride(j, 3, 4) <==> r == 3)
            && (r == 0 ==> j / 2 == 2 * q && (j - 0) / 4 == q)
            && (r == 1 ==> (j - 1) / 4 == q)
            && (r == 2 ==> j / 2 == 2 * q + 1 && (j - 2) / 4 == q)
            && (r == 3 ==> (j - 3) / 4 == q)
  {
    var q, r := j / 4, j % 4;
    assert j == 4 * q + r;
    assert w == 2 * (w / 2);
    if r == 0 {
      Arith.DivModUnique(j, 2, 2 * q, 0);
      Arith.DivModUnique(j - 1, 4, q - 1, 3);
      Arith.DivModUnique(j - 2, 4, q - 1, 2);
      Arith.DivModUnique(j - 3, 4, q - 1, 1);
    } else if r == 1 {
      Arith.DivModUnique(j, 2, 2 * q, 1);
      Arith.DivModUnique(j - 1, 4, q, 0);
      Arith.DivModUnique(j - 2, 4, q - 1, 3);
      Arith.DivModUnique(j - 3, 4, q - 1, 2);
    } else if r == 2 {
      Arith.DivModUnique(j, 2, 2 * q + 1, 0);
      Arith.DivModUnique(j - 1, 4, q, 1);
      Arith.DivModUnique(j - 2, 4, q, 0);
      Arith.DivModUnique(j - 3, 4, q - 1, 3);
    } else {
      Arith.DivModUnique(j, 2, 2 * q + 1, 1);
      Arith.DivModUnique(j - 1, 4, q, 2);
      Arith.DivModUnique(j - 2, 4, q, 1);
      Arith.DivModUnique(j - 3, 4, q, 0);
    }
  }

  /** Element k of a plane of even length read with step 2 is pixel
      start + 2k's value. */
  lemma Halved(s: seq<Byte>, start: nat, k: nat)
    requires |s| % 2 == 0 && start < 2 && k < |s| / 2
    ensures Count(|s|, start, 2) == |s| / 2 && start + 2 * k < |s|
    ensures Strided(s, start, 2)[k] == s[start + 2 * k]
  {
    HalfCounts(|s|);
  }

  /** The three slice assignments shared by the YUYV and YVYU rows, on any
      planes: bytes 0 and 2 of macropixel q come from `ys`, bytes 1 and 3
      from element q of the halved planes `c1` and `c2`. */
  lemma Interleave(prev: seq<Byte>, ys: seq<Byte>, c1: seq<Byte>, c2: seq<Byte>, j: int)
    requires |prev| == 2 * |ys| && |ys| % 2 == 0 && |c1| == |ys| / 2 && |c2| == |ys| / 2
    requires 0 <= j < |prev|
    ensures Interleaved(prev, ys, c1, c2).Ok?
    ensures var q, r := j / 4, j % 4;
            && q < |c1| && 2 * q + 1 < |ys|
            && Interleaved(prev, ys, c1, c2).value[j] ==
                 if r == 0 then ys[2 * q] else if r == 1 then c1[q] else if r == 2 then ys[2 * q + 1] else c2[q]
  {
    HalfCounts(|ys|);
    MacroPixel(j, |ys|);
    var b1 := Assign(prev, 0, 2, ys).value;
    var b2 := Assign(b1, 1, 4, c1).value;
    var b3 := Assign(b2, 3, 4, c2).value;
    assert Interleaved(prev, ys, c1, c2) == Ok(b3);
    assert b3[j] == if j % 4 == 3 then c2[j / 4] else b2[j];
    assert b2[j] == if j % 4 == 1 then c1[j / 4] else b1[j];
  }

  /** The four slice assignments of a YYUV row, on any planes: byte r of
      macropixel q is element q of the r-th plane. */
  lemma Quarter(prev: seq<Byte>, a: seq<Byte>, b: seq<Byte>, c: seq<Byte>, d: seq<Byte>, j: int)
    requires |prev| == 4 * |a| && |b| == |a| && |c| == |a| && |d| == |a|
    requires 0 <= j < |prev|
    ensures Quartered(prev, a, b, c, d).Ok?
    ensures var q, r := j / 4, j % 4;
            && q < |a|
            && Quartered(prev, a, b, c, d).value[j] ==
                 if r == 0 then a[q] else if r == 1 then b[q] else if r == 2 then c[q] else d[q]
  {
    HalfCounts(2 * |a|);
    MacroPixel(j, 2 * |a|);
    var b1 := Assign(prev, 0, 4, a).value;
    var b2 := Assign(b1, 1, 4, b).value;
    var b3 := Assign(b2, 2, 4, c).value;
    var b4 := Assign(b3, 3, 4, d).value;
    assert Quartered(prev, a, b, c, d) == Ok(b4);
    assert b4[j] == if j % 4 == 3 then d[j / 4] else b3[j];
    assert b3[j] == if j % 4 == 2 then c[j / 4] else b2[j];
    assert b2[j] == if j % 4 == 1 then b[j / 4] else b1[j];
  }

  lemma LayoutYuyv(prev: seq<Byte>, row: seq<seq<Byte>>, conv: Conv, j: int)
    requires Triples(row) && |prev| == 2 * |row| && |row| % 2 == 0 && 0 <= j < |prev|
    ensures PackRow(YUYV, prev, row, conv).Ok?
    ensures PackRow(YUYV, prev, row, conv).value[j] == Expected(YUYV, prev, row, conv, j)
  {
    var t := Converted(row, conv);
    var q := j / 4;
    MacroPixel(j, |row|);
    Halved(UPlane(t), 0, q);
    Halved(VPlane(t), 0, q);
    Interleave(prev, YPlane(t), Strided(UPlane(t), 0, 2), Strided(VPlane(t), 0, 2), j);
  }

  lemma LayoutYvyu(prev: seq<Byte>, row: seq<seq<Byte>>, conv: Conv, j: int)
    requires Triples(row) && |prev| == 2 * |row| && |row| % 2 == 0 && 0 <= j < |prev|
    ensures PackRow(YVYU, prev, row, conv).Ok?
    ensures PackRow(YVYU, prev, row, conv).value[j] == Expected(YVYU, prev, row, conv, j)
  {
    var t := Converted(row, conv);
    var q := j / 4;
    MacroPixel(j, |row|);
    Halved(UPlane(t), 0, q);
    Halved(VPlane(t), 0, q);
    Interleave(prev, YPlane(t), Strided(VPlane(t), 0, 2), Strided(UPlane(t), 0, 2), j);
  }

  lemma LayoutYyuv(prev: seq<Byte>, row: seq<seq<Byte>>, conv: Conv, j: int)
    requires Triples(row) && |prev| == 2 * |row| && |row| % 2 == 0 && 0 <= j < |prev|
    ensures PackRow(YYUV, prev, row, conv).Ok?
    ensures PackRow(YYUV, prev, row, conv).value[j] == Expected(YYUV, prev, row, conv, j)
  {
    var t := Converted(row, conv);
    var q := j / 4;
    MacroPixel(j, |row|);
    Halved(YPlane(t), 0, q);
    Halved(YPlane(t), 1, q);
    Halved(UPlane(t), 0, q);
    Halved(VPlane(t), 0, q);
    Quarter(prev, Strided(YPlane(t), 0, 2), Strided(YPlane(t), 1, 2),
            Strided(UPlane(t), 0, 2), Strided(VPlane(t), 0, 2), j);
  }

  lemma LayoutBgr24(prev: seq<Byte>, row: seq<seq<Byte>>, conv: Conv, j: int)
    requires Triples(row) && |prev| == 3 * |row| && 0 <= j < |prev|
    ensures PackRow(BGR24, prev, row, conv).Ok?
    ensures PackRow(BGR24, prev, row, conv).value[j] == Expected(BGR24, prev, row, conv, j)
  {
    var b1 := Assign(prev, 0, 3, Channel(row, 0)).value;
    var b2 := Assign(b1, 1, 3, Channel(row, 1)).value;
    var b3 := Assign(b2, 2, 3, Channel(row, 2)).value;
    assert PackRow(BGR24, prev, row, conv) == Ok(b3);
  }

  lemma LayoutRgb24(prev: seq<Byte>, row: seq<seq<Byte>>, conv: Conv, j: int)
    requires Triples(row) && |prev| == 3 * |row| && 0 <= j < |prev|
    ensures PackRow(RGB24, prev, row, conv).Ok?
    ensures PackRow(RGB24, prev, row, conv).value[j] == Expected(RGB24, prev, row, conv, j)
  {
    var b1 := Assign(prev, 0, 3, Channel(row, 2)).value;
    var b2 := Assign(b1, 1, 3, Channel(row, 1)).value;
    var b3 := Assign(b2, 2, 3, Channel(row, 0)).value;
    assert PackRow(RGB24, prev, row, conv) == Ok(b3);
  }

  lemma LayoutYuv32(prev: seq<Byte>, row: seq<seq<Byte>>, conv: Conv, j: int)
    requires Triples(row) && |prev| == 4 * |row| && 0 <= j < |prev|
    ensures PackRow(YUV32, prev, row, conv).Ok?
    ensures PackRow(YUV32, prev, row, conv).value[j] == Expected(YUV32, prev, row, conv, j)
  {
    var t := Converted(row, conv);
    var b1 := Assign(prev, 1, 4, YPlane(t)).value;
    var b2 := Assign(b1, 2, 4, UPlane(t)).value;
    var b3 := Assign(b2, 3, 4, VPlane(t)).value;
    assert PackRow(YUV32, prev, row, conv) == Ok(b3);
  }

  lemma LayoutRgb32(prev: seq<Byte>, row: seq<seq<Byte>>, conv: Conv, j: int)
    requires Triples(row) && |prev| == 4 * |row| && 0 <= j < |prev|
    ensures PackRow(RGB32, prev, row, conv).Ok?
    ensures PackRow(RGB32, prev, row, conv).value[j] == Expected(RGB32, prev, row, conv, j)
  {
    var b1 := Assign(prev, 1, 4, Channel(row, 2)).value;
    var b2 := Assign(b1, 2, 4, Channel(row, 1)).value;
    var b3 := Assign(b2, 3, 4, Channel(row, 0)).value;
    assert PackRow(RGB32, prev, row, conv) == Ok(b3);
  }

  // ---------------------------------------------------------------- whole frames

  /** The per-row loop; the first row that does not fit raises. */
  function PackAll(f: Format, bufs: seq<seq<Byte>>, rows: seq<seq<seq<Byte>>>, conv: Conv): (r: Result<seq<seq<Byte>>>)
    requires |bufs| == |rows| && forall i | 0 <= i < |rows| :: Triples(rows[i])
    ensures r.Ok? ==> |r.value| == |rows| && forall i | 0 <= i < |rows| :: |r.value[i]| == |bufs[i]|
  {
    if |rows| == 0 then Ok([])
    else
      var first :- PackRow(f, bufs[0], rows[0], conv);
      var rest :- PackAll(f, bufs[1..], rows[1..], conv);
      Ok([first] + rest)
  }

  /** The two bytes a lone 4:2:2 pixel packs into: its rescaled luma, then
      the chroma sample the format puts first. */
  function SinglePixel(f: Format, p: (Byte, Byte, Byte)): (r: seq<Byte>)
    requires f == YUYV || f == YVYU
    ensures |r| == Packed(f)
  {
    [Luma(p.0), if f == YUYV then p.1 else p.2]
  }

  /** A row one pixel wide fills its two bytes with that pixel's luma and
      its first chroma sample; the second chroma slice lies past the end of
      the row, so the broadcast writes nothing. */
  lemma SinglePixelRow(f: Format, prev: seq<Byte>, row: seq<seq<Byte>>, conv: Conv)
    requires f == YUYV || f == YVYU
    requires Triples(row) && |row| == 1 && |prev| == 2
    ensures PackRow(f, prev, row, conv) == Ok(SinglePixel(f, Converted(row, conv)[0]))
  {
    var t := Converted(row, conv);
    var c1 := if f == YUYV then UPlane(t) else VPlane(t);
    var c2 := if f == YUYV then VPlane(t) else UPlane(t);
    assert Strided(c1, 0, 2) == [c1[0]];
    assert Strided(c2, 0, 2) == [c2[0]];
    var b1 := Assign(prev, 0, 2, YPlane(t)).value;
    assert b1[0] == Luma(t[0].0) && b1[1] == prev[1];
    var b2 := Assign(b1, 1, 4, [c1[0]]).value;
    assert b2 == [Luma(t[0].0), c1[0]];
    var b3 := Assign(b2, 3, 4, [c2[0]]).value;
    assert !OnStride(0, 3, 4) && !OnStride(1, 3, 4);
    assert b3 == b2;
  }

  /** When every row fits, each row is packed on its own. */
  lemma {:induction false} PackAllRows(f: Format, bufs: seq<seq<Byte>>, rows: seq<seq<seq<Byte>>>, conv: Conv)
    requires |bufs| == |rows| && forall i | 0 <= i < |rows| :: Triples(rows[i])
    requires forall i | 0 <= i < |rows| :: |bufs[i]| == Packed(f) * |rows[i]| && RowFits(f, |rows[i]|)
    ensures PackAll(f, bufs, rows, conv).Ok?
    ensures forall i | 0 <= i < |rows| ::
              PackRow(f, bufs[i], rows[i], conv).Ok? &&
              PackAll(f, bufs, rows, conv).value[i] == PackRow(f, bufs[i], rows[i], conv).value
    decreases |rows|
  {
    if |rows| > 0 {
      PackRowFits(f, bufs[0], rows[0], conv);
      PackAllRows(f, bufs[1..], rows[1..], conv);
      forall i | 0 <= i < |rows|
        ensures PackRow(f, bufs[i], rows[i], conv).Ok?
      {
        PackRowFits(f, bufs[i], rows[i], conv);
      }
      var all := PackAll(f, bufs, rows, conv).value;
      forall i | 1 <= i < |rows|
        ensures all[i] == PackRow(f, bufs[i], rows[i], conv).value
      {
        assert bufs[1..][i - 1] == bufs[i] && rows[1..][i - 1] == rows[i];
      }
    }
  }

  /** The rows laid end to end, as `tostring` serializes the buffer. */
  function Flatten(rows: seq<seq<Byte>>): seq<Byte> {
    if |rows| == 0 then [] else rows[0] + Flatten(rows[1..])
  }

  /** Position (i, j) of a row-major grid of m rows of n lies inside it. */
  lemma GridIndex(i: int, j: int, m: int, n: int)
    requires 0 <= i < m && 0 <= j < n
    ensures 0 <= i * n + j < m * n
  {
    MulMono(n, i, m - 1);
    MulMono(n, 0, i);
    assert n * (m - 1) + n == m * n;
  }

  /** Rows of n bytes serialize to |rows| * n bytes. */
  lemma {:induction false} FlattenSize(rows: seq<seq<Byte>>, n: nat)
    requires forall i | 0 <= i < |rows| :: |rows[i]| == n
    ensures |Flatten(rows)| == |rows| * n
    decreases |rows|
  {
    if |rows| > 0 {
      FlattenSize(rows[1..], n);
      assert |rows| * n == n + (|rows| - 1) * n;
    }
  }

  /** Byte j of row i is byte i * n + j of the serialization. */
  lemma {:induction false} FlattenAt(rows: seq<seq<Byte>>, n: nat, i: nat, j: nat)
    requires forall i | 0 <= i < |rows| :: |rows[i]| == n
    requires i < |rows| && j < n
    ensures i * n + j < |Flatten(rows)| && Flatten(rows)[i * n + j] == rows[i][j]
    decreases i
  {
    FlattenSize(rows, n);
    GridIndex(i, j, |rows|, n);
    if i > 0 {
      FlattenAt(rows[1..], n, i - 1, j);
      assert i * n + j == n + ((i - 1) * n + j);
      assert rows[1..][i - 1] == rows[i];
    }
  }

  /** `schedule_frame`: the frame's shape and pixel order are checked before
      anything is written, then the frame is packed into the buffer and the
      whole buffer is written out. */
  function ScheduleFrame(cam: Webcam, frame: Frame, conv: Conv): (r: Result<(Webcam, seq<Byte>)>)
    requires cam.Good() && frame.Shaped()
    ensures (frame.height != cam.settings.height || frame.width != cam.settings.width
             || frame.channels != cam.channels) ==> r == Err(BadGeometry)
    ensures (frame.height == cam.settings.height && frame.width == cam.settings.width
             && frame.channels == cam.channels && cam.inputFormat != "BGR") ==> r == Err(Unsupported)
    ensures (frame.height == cam.settings.height && frame.width == cam.settings.width
             && frame.channels == cam.channels && cam.inputFormat == "BGR"
             && ConvertsToYuv(cam.settings.format) && (frame.height == 0 || frame.width == 0)) ==>
              r == Err(EmptyImage)
    ensures r.Ok? ==> var cam' := r.value.0;
              && cam'.Good() && cam'.settings == cam.settings && cam'.channels == cam.channels
              && cam'.inputFormat == cam.inputFormat && r.value.1 == Flatten(cam'.buffer)
  {
    var s := cam.settings;
    if frame.height != s.height then Err(BadGeometry)
    else if frame.width != s.width then Err(BadGeometry)
    else if frame.channels != cam.channels then Err(BadGeometry)
    else if cam.inputFormat != "BGR" then Err(Unsupported)
    // the colour conversion refuses a frame without pixels
    else if ConvertsToYuv(s.format) && (s.height == 0 || s.width == 0) then Err(EmptyImage)
    else
      var rows :- PackAll(s.format, cam.buffer, frame.px, conv);
      var cam' := cam.(buffer := rows);
      Ok((cam', Flatten(rows)))
  }

  /** A frame of the configured shape is accepted exactly when it has
      pixels and a width that fits the format, in the formats that convert
      to YUV; the RGB formats accept every such frame. */
  lemma ScheduleFrameAccepts(cam: Webcam, frame: Frame, conv: Conv)
    requires cam.Good() && frame.Shaped() && cam.inputFormat == "BGR"
    requires frame.height == cam.settings.height && frame.width == cam.settings.width && frame.channels == 3
    ensures var f := cam.settings.format;
            ScheduleFrame(cam, frame, conv).Ok? <==>
              !ConvertsToYuv(f) ||
              (frame.height > 0 && frame.width > 0 && (!Is422(f) || frame.width % 2 == 0 || (frame.width == 1 && f != YYUV)))
  {
    var f := cam.settings.format;
    RowFitsExactly(f, frame.width);
    if RowFits(f, frame.width) {
      PackAllRows(f, cam.buffer, frame.px, conv);
    } else if frame.height > 0 {
      PackRowFits(f, cam.buffer[0], frame.px[0], conv);
    }
  }

  /** Every accepted frame lands in the buffer in the documented layout,
      and exactly `height * k * width` bytes are written, which is the
      image size announced to the driver whenever it fits in 32 bits. */
  lemma ScheduleFrameLayout(cam: Webcam, frame: Frame, conv: Conv)
    requires cam.Good() && frame.Shaped()
    requires ScheduleFrame(cam, frame, conv).Ok?
    ensures var f := cam.settings.format;
            var k := Packed(f);
            var (cam', out) := ScheduleFrame(cam, frame, conv).value;
            && |out| == cam.settings.height * (k * cam.settings.width)
            && (ConvertsToYuv(f) ==> frame.height > 0 && frame.width > 0)
            && (Is422(f) ==> cam.settings.width % 2 == 0 || cam.settings.width == 1)
            && (!Is422(f) || cam.settings.width % 2 == 0 ==>
                  forall i, j | 0 <= i < |cam.buffer| && 0 <= j < k * cam.settings.width ::
                    cam'.buffer[i][j] == Expected(f, cam.buffer[i], frame.px[i], conv, j))
            && ((f == YUYV || f == YVYU) && cam.settings.width == 1 ==>
                  forall i | 0 <= i < |cam.buffer| ::
                    cam'.buffer[i] == SinglePixel(f, Converted(frame.px[i], conv)[0]))
  {
    var f := cam.settings.format;
    var k := Packed(f);
    var (cam', out) := ScheduleFrame(cam, frame, conv).value;
    FlattenSize(cam'.buffer, k * cam.settings.width);
    RowFitsExactly(f, cam.settings.width);
    if frame.height > 0 {
      PackRowFits(f, cam.buffer[0], frame.px[0], conv);
      assert RowFits(f, cam.settings.width);
    }
    if !Is422(f) || cam.settings.width % 2 == 0 {
      PackAllRows(f, cam.buffer, frame.px, conv);
      forall i, j | 0 <= i < |cam.buffer| && 0 <= j < k * cam.settings.width
        ensures cam'.buffer[i][j] == Expected(f, cam.buffer[i], frame.px[i], conv, j)
      {
        LayoutAt(f, cam.buffer[i], frame.px[i], conv, j);
      }
    }
    if (f == YUYV || f == YVYU) && cam.settings.width == 1 {
      PackAllRows(f, cam.buffer, frame.px, conv);
      forall i | 0 <= i < |cam.buffer|
        ensures cam'.buffer[i] == SinglePixel(f, Converted(frame.px[i], conv)[0])
      {
        SinglePixelRow(f, cam.buffer[i], frame.px[i], conv);
      }
    }
  }

  /** The format is chosen from the code as stored in its 32-bit field, so
      codes that agree modulo 2^32 open the same device. */
  lemma OpenReadsStoredCode(deviceExists: bool, width: int, height: int, channels: int,
                            inputFormat: string, code: int, k: int)
    ensures Open(deviceExists, width, height, channels, inputFormat, code + U32Modulus * k) ==
            Open(deviceExists, width, height, channels, inputFormat, code)
    ensures channels == 3 && deviceExists ==>
              (Open(deviceExists, width, height, channels, inputFormat, code).Ok? <==>
               exists f: Format {:trigger Code(f)} :: Code(f) == code % U32Modulus)
  {
    Arith.ModAddMultiple(code, k, U32Modulus);
    if channels == 3 && deviceExists && FormatOf(U32(code)).None? {
      forall f: Format ensures Code(f) != code % U32Modulus {
        FormatCodes(f);
      }
    }
  }

  /** The announced sizes are exact whenever they fit in 32 bits: a line
      holds k * width bytes and an image k * width * height. */
  lemma GeometryIsExact(deviceExists: bool, width: int, height: int, inputFormat: string, code: int)
    requires deviceExists && FormatOf(U32(code)).Some?
    requires 0 <= width < U32Modulus && 0 <= height < U32Modulus
    requires Packed(FormatOf(U32(code)).value) * width * height < U32Modulus
    requires Packed(FormatOf(U32(code)).value) * width < U32Modulus
    ensures var cam := Open(deviceExists, width, height, 3, inputFormat, code).value;
            var k := Packed(cam.settings.format);
            && cam.settings.bytesPerLine == k * width
            && cam.settings.sizeImage == k * width * height
            && cam.settings.sizeImage == |cam.buffer| * cam.settings.bytesPerLine
  {
    var k := Packed(FormatOf(U32(code)).value);
    MulMono(k, 0, width);
    if width > 0 {
      MulMono(k * width, 0, height);
    }
    assert k * width * height == height * (k * width);
  }

  /** In the four-byte formats byte 0 of every pixel is zero. */
  ghost predicate PadZero(cam: Webcam)
    requires cam.Good()
  {
    Packed(cam.settings.format) == 4 ==>
      forall i, j | 0 <= i < |cam.buffer| && 0 <= j < |cam.buffer[i]| && j % 4 == 0 :: cam.buffer[i][j] == 0
  }

  /** The pad byte is zeroed by the constructor and never written, so every
      frame sent in RGB32 or YUV32 carries a zero there. */
  lemma PadStaysZero(cam: Webcam, frame: Frame, conv: Conv)
    requires cam.Good() && frame.Shaped() && PadZero(cam)
    requires ScheduleFrame(cam, frame, conv).Ok?
    ensures PadZero(ScheduleFrame(cam, frame, conv).value.0)
  {
    var cam' := ScheduleFrame(cam, frame, conv).value.0;
    if Packed(cam.settings.format) == 4 {
      ScheduleFrameLayout(cam, frame, conv);
    }
  }

  /** A freshly opened device satisfies the pad invariant. */
  lemma OpenPadZero(deviceExists: bool, width: int, height: int, inputFormat: string, code: int)
    requires Open(deviceExists, width, height, 3, inputFormat, code).Ok?
    ensures PadZero(Open(deviceExists, width, height, 3, inputFormat, code).value)
  {
  }
}

=== FILE: history.dfy ===
/** The rolling frame history of the boomerang effect: each new frame is
    appended with its timestamp and entries older than `duration` seconds
    are dropped from the front. */
module History {
  import opened Outcomes

  /** One recorded item and the time it was recorded. */
  datatype Entry<T> = Entry(item: T, time: real)

  /** Python indexing of a list or deque: negative indices count from the
      end, anything outside -|s| .. |s|-1 raises IndexError. */
  function PyGet<T>(s: seq<T>, i: int): (r: Result<T>)
    ensures r.Ok? <==> -|s| <= i < |s|
    ensures 0 <= i < |s| ==> r == Ok(s[i])
    ensures -|s| <= i < 0 ==> r == Ok(s[|s| + i])
  {
    if 0 <= i < |s| then Ok(s[i])
    else if -|s| <= i < 0 then Ok(s[|s| + i])
    else Err(IndexOutOfRange)
  }

  /** Timestamps never decrease along the history. */
  ghost predicate Sorted<T>(h: seq<Entry<T>>) {
    forall i, j | 0 <= i <= j < |h| :: h[i].time <= h[j].time
  }

  /** Every entry is younger than `duration` at time `now`. */
  ghost predicate Fresh<T>(h: seq<Entry<T>>, duration: real, now: real) {
    forall i | 0 <= i < |h| :: h[i].time + duration >= now
  }

  /** The loop `while h[0].time + duration < now: h.popleft()`. Reading the
      front of an emptied deque raises, so the loop fails exactly when every
      entry is stale. */
  function DropStale<T>(h: seq<Entry<T>>, duration: real, now: real): (r: Result<seq<Entry<T>>>)
    decreases |h|
    ensures r.Ok? <==> exists i | 0 <= i < |h| :: h[i].time + duration >= now
    ensures r.Ok? ==> 0 < |r.value| <= |h| && r.value == h[|h| - |r.value|..]
    ensures r.Ok? ==> r.value[0].time + duration >= now
    ensures r.Ok? ==> forall i | 0 <= i < |h| - |r.value| :: h[i].time + duration < now
  {
    if |h| == 0 then Err(IndexOutOfRange)
    else if h[0].time + duration < now then
      var r := DropStale(h[1..], duration, now);
      assert forall i | 1 <= i < |h| :: h[i] == h[1..][i - 1];
      r
    else Ok(h)
  }

  /** Append the item recorded at `now`, then drop the stale front. */
  function Record<T>(h: seq<Entry<T>>, item: T, duration: real, now: real): (r: Result<seq<Entry<T>>>)
    ensures duration >= 0.0 ==> r.Ok?
    ensures r.Ok? ==> 0 < |r.value| <= |h| + 1 && r.value[|r.value| - 1] == Entry(item, now)
  {
    var h' := h + [Entry(item, now)];
    assert h'[|h'| - 1].time + duration >= now <== duration >= 0.0;
    DropStale(h', duration, now)
  }

  /** Appending an entry no earlier than every other keeps the order. */
  lemma AppendSorted<T>(h: seq<Entry<T>>, e: Entry<T>)
    requires Sorted(h)
    requires forall i | 0 <= i < |h| :: h[i].time <= e.time
    ensures Sorted(h + [e])
  {
    var h' := h + [e];
    forall i, j | 0 <= i <= j < |h'|
      ensures h'[i].time <= h'[j].time
    {
      if j < |h| {
        assert h'[i] == h[i] && h'[j] == h[j];
      } else if i < |h| {
        assert h'[i] == h[i] && h'[j] == e;
      }
    }
  }

  /** A suffix of an ordered history whose first entry is fresh is fresh
      throughout and still ordered. */
  lemma SuffixFresh<T>(h: seq<Entry<T>>, s: nat, duration: real, now: real)
    requires Sorted(h) && s < |h| && h[s].time + duration >= now
    ensures Sorted(h[s..]) && Fresh(h[s..], duration, now)
  {
    var r := h[s..];
    forall i | 0 <= i < |r|
      ensures r[i].time + duration >= now
    {
      assert r[i] == h[s + i];
    }
    forall i, j | 0 <= i <= j < |r|
      ensures r[i].time <= r[j].time
    {
      assert r[i] == h[s + i] && r[j] == h[s + j];
    }
  }

  /** With a non-negative duration, recording into a time-ordered history
      whose entries are no later than `now` keeps it ordered and leaves only
      entries younger than `duration`, the new one included. */
  lemma RecordKeepsFresh<T>(h: seq<Entry<T>>, item: T, duration: real, now: real)
    requires duration >= 0.0 && Sorted(h)
    requires forall i | 0 <= i < |h| :: h[i].time <= now
    ensures Record(h, item, duration, now).Ok?
    ensures var r := Record(h, item, duration, now).value;
            Sorted(r) && Fresh(r, duration, now) && r[|r| - 1] == Entry(item, now)
  {
    var e := Entry(item, now);
    var h' := h + [e];
    AppendSorted(h, e);
    assert Record(h, item, duration, now) == DropStale(h', duration, now);
    var r := DropStale(h', duration, now).value;
    var s := |h'| - |r|;
    SuffixFresh(h', s, duration, now);
  }
}

=== FILE: images.dfy ===
/** Images as the modelled code sees them: numpy arrays of shape
    height x width x depth. Pixel values produced by OpenCV are not computed:
    a library call yields pixels that are free terms naming the call, its
    input and the position, so the only fact the model uses about such a
    call is the geometry of its result. */
module Images {
  import opened Outcomes

  /** A positive integer: decoded and resized images are never empty. */
  type Pos = n: int | n > 0 witness 1

  /** Library operations whose pixel values stay uninterpreted. */
  datatype LibOp =
    | Resample(toWidth: int, toHeight: int)  // cv2.resize
    | Bilateral                              // cv2.bilateralFilter(frame, 9, 75, 75)
    | BitwiseNot                             // cv2.bitwise_not
    | Hologram                               // the hologram effect
    | Segmentation                           // the mask from the segmentation service
    | Normalize                              // mask / 255
    | Complement                             // 1 - mask
    | Denormalize                            // mask * 255

  datatype Pixel =
    | Raw(channels: seq<int>)                             // known channel values
    | Lib(op: LibOp, src: seq<seq<Pixel>>, row: int, col: int)  // pixel (row, col) of op(src)
    | Channels(of: Pixel, lo: nat, hi: nat)               // channels lo..hi-1 of a pixel

  /** A numpy array of shape (height, width, depth); a 2-D mask has depth 1. */
  datatype Image = Image(height: Pos, width: Pos, depth: nat, px: seq<seq<Pixel>>) {

    /** The rows really have the declared shape. */
    predicate Valid() {
      |px| == height && forall r | 0 <= r < |px| :: |px[r]| == width
    }
  }

  /** A zero (black) pixel of a 3-channel frame. */
  const Black: Pixel := Raw([0, 0, 0])

  /** Fully transparent and fully opaque mask pixels. */
  const Clear: Pixel := Raw([0])
  const Solid: Pixel := Raw([255])

  /** An image of one repeated pixel (np.zeros(...) + v). */
  function Fill(h: Pos, w: Pos, depth: nat, p: Pixel): (r: Image)
    ensures r.Valid() && r.height == h && r.width == w && r.depth == depth
    ensures forall i, j | 0 <= i < h && 0 <= j < w :: r.px[i][j] == p
  {
    Image(h, w, depth, seq(h, _ => seq(w, _ => p)))
  }

  /** A library call that keeps the geometry of its input. */
  function Apply(op: LibOp, img: Image): (r: Image)
    ensures r.Valid()
    ensures r.height == img.height && r.width == img.width && r.depth == img.depth
  {
    Image(img.height, img.width, img.depth,
          seq(img.height, i => seq(img.width, j => Lib(op, img.px, i, j))))
  }

  /** cv2.resize(img, (w, h)): OpenCV rejects an empty target size. */
  function Resize(img: Image, w: int, h: int): (r: Result<Image>)
    ensures r.Ok? <==> w > 0 && h > 0
    ensures r.Ok? ==> r.value.Valid() && r.value.width == w && r.value.height == h
    ensures r.Ok? ==> r.value.depth == img.depth
  {
    if w > 0 && h > 0 then
      Ok(Image(h, w, img.depth, seq(h, i => seq(w, j => Lib(Resample(w, h), img.px, i, j)))))
    else
      Err(EmptyResize)
  }

  /** Resize of an optional mask: `None` stays `None`. */
  function ResizeOpt(m: Option<Image>, w: int, h: int): (r: Result<Option<Image>>)
    ensures m.None? ==> r == Ok(None)
    ensures m.Some? ==> (r.Ok? <==> w > 0 && h > 0)
    ensures r.Ok? && m.Some? ==> r.value.Some? && r.value.value.Valid()
    ensures r.Ok? && m.Some? ==> r.value.value.width == w && r.value.value.height == h
  {
    match m
    case None => Ok(None)
    case Some(img) =>
      var s :- Resize(img, w, h);
      Ok(Some(s))
  }

  /** The numpy slice img[:, :, lo:hi]. */
  function Slice(img: Image, lo: nat, hi: nat): (r: Image)
    requires lo <= hi
    ensures r.height == img.height && r.width == img.width && r.depth == hi - lo
    ensures img.Valid() ==> r.Valid()
    ensures img.Valid() ==> forall i, j | 0 <= i < img.height && 0 <= j < img.width ::
              r.px[i][j] == Channels(img.px[i][j], lo, hi)
  {
    Image(img.height, img.width, hi - lo,
          seq(|img.px|, i requires 0 <= i < |img.px| =>
            seq(|img.px[i]|, j requires 0 <= j < |img.px[i]| => Channels(img.px[i][j], lo, hi))))
  }

  /** Split of a 4-channel image: colour channels 0..2 and alpha channel 3. */
  function SplitAlpha(img: Image): (r: (Image, Image))
    ensures r.0.depth == 3 && r.1.depth == 1
    ensures r.0.height == img.height && r.0.width == img.width
    ensures r.1.height == img.height && r.1.width == img.width
    ensures img.Valid() ==> r.0.Valid() && r.1.Valid()
  {
    (Slice(img, 0, 3), Slice(img, 3, 4))
  }
}

=== FILE: layers.dfy ===
/** Layer state: a position, a size, a stacking level and the published
    frame and mask. A mask is stored normalized to 0..1 together with its
    complement; both are kept as library terms. Locks are left out: every
    operation here is one atomic step. */
module Layers {
  import opened Outcomes
  import opened Images
  import opened Dimension
  import opened Sources
  import Providers

  /** The stored mask and its complement, always written together. */
  datatype MaskPair = MaskPair(mask: Image, invmask: Image)

  datatype Layer = Layer(
    posx: int, posy: int,
    dims: Dims,
    level: int,
    frame: Option<Image>,
    mask: Option<MaskPair>)

  /** The keys `setParams` looks at; `None` means the key is absent. A
      present frame or mask key may itself carry None. */
  datatype Params = Params(
    position: Option<(int, int)>,
    dimension: Option<Dims>,
    level: Option<int>,
    frame: Option<Option<Image>>,
    mask: Option<Option<Image>>)

  /** `writeFrame`: the frame is stored as given. */
  function WriteFrame(l: Layer, f: Option<Image>): (r: Layer)
    ensures r.frame == f
    ensures r.(frame := l.frame) == l
  {
    l.(frame := f)
  }

  /** The pair stored for an 8-bit mask: mask / 255 and 1 - mask / 255. */
  function Normalized(m: Image): (r: MaskPair)
    ensures r.mask.width == m.width && r.mask.height == m.height
    ensures r.invmask.width == m.width && r.invmask.height == m.height
  {
    var n := Apply(Normalize, m);
    MaskPair(n, Apply(Complement, n))
  }

  /** `writeMask`: None clears mask and complement together; a mask sets both. */
  function WriteMask(l: Layer, m: Option<Image>): (r: Layer)
    ensures r.mask.Some? <==> m.Some?
    ensures m.Some? ==> r.mask.value.mask.width == m.value.width &&
                        r.mask.value.mask.height == m.value.height
    ensures r.(mask := l.mask) == l
  {
    if m.None? then l.(mask := None) else l.(mask := Some(Normalized(m.value)))
  }

  /** `getFrame`: a copy of the stored frame, or None. */
  function GetFrame(l: Layer): Option<Image> {
    l.frame
  }

  /** `getMask`: the stored pair, or None. */
  function GetMask(l: Layer): Option<MaskPair> {
    l.mask
  }

  /** Reading back what was just written gives the written value, and a
      frame write does not disturb the mask nor a mask write the frame. */
  lemma WriteThenRead(l: Layer, f: Option<Image>, m: Option<Image>)
    ensures GetFrame(WriteFrame(l, f)) == f
    ensures GetMask(WriteFrame(l, f)) == GetMask(l)
    ensures GetMask(WriteMask(l, m)) == (if m.Some? then Some(Normalized(m.value)) else None)
    ensures GetFrame(WriteMask(l, m)) == GetFrame(l)
  {
  }

  /** `setParams`: each present key overwrites its field, in the order
      position, dimension, level, frame, mask. */
  function SetParams(l: Layer, o: Params): (r: Layer)
    ensures r.posx == (if o.position.Some? then o.position.value.0 else l.posx)
    ensures r.posy == (if o.position.Some? then o.position.value.1 else l.posy)
    ensures r.dims == Providers.Given(o.dimension, l.dims)
    ensures r.level == Providers.Given(o.level, l.level)
    ensures r.frame == Providers.Given(o.frame, l.frame)
    ensures o.mask.None? ==> r.mask == l.mask
    ensures o.mask.Some? ==> r.mask == WriteMask(l, o.mask.value).mask
  {
    var l1 := if o.position.Some? then l.(posx := o.position.value.0, posy := o.position.value.1) else l;
    var l2 := if o.dimension.Some? then l1.(dims := o.dimension.value) else l1;
    var l3 := if o.level.Some? then l2.(level := o.level.value) else l2;
    var l4 := if o.frame.Some? then WriteFrame(l3, o.frame.value) else l3;
    if o.mask.Some? then WriteMask(l4, o.mask.value) else l4
  }

  const NoParams: Params := Params(None, None, None, None, None)

  /** Applying the same parameters twice is the same as applying them once,
      and applying none changes nothing. */
  lemma SetParamsIdempotent(l: Layer, o: Params)
    ensures SetParams(SetParams(l, o), o) == SetParams(l, o)
    ensures SetParams(l, NoParams) == l
  {
  }

  /** The base `command`: a plain layer reacts to no key. */
  function Command(l: Layer, key: int): (r: bool)
    ensures !r
  {
    false
  }

  /** The base `updateDimension`: the stored frame, and the stored mask
      scaled back to 0..255, are resized to the layer's size and written
      again. cv2.resize fails on a placeholder size. */
  function UpdateDimension(l: Layer): (r: Result<Layer>)
    ensures l.frame.None? && l.mask.None? ==> r == Ok(l)
    ensures (l.frame.Some? || l.mask.Some?) ==> (r.Ok? <==> Fixed(l.dims))
    ensures r.Ok? ==> r.value.(frame := l.frame, mask := l.mask) == l
    ensures r.Ok? ==> (r.value.frame.Some? <==> l.frame.Some?) && (r.value.mask.Some? <==> l.mask.Some?)
    ensures r.Ok? && l.frame.Some? ==>
              r.value.frame.value.width == l.dims.width && r.value.frame.value.height == l.dims.height
    ensures r.Ok? && l.mask.Some? ==>
              r.value.mask.value.mask.width == l.dims.width && r.value.mask.value.mask.height == l.dims.height
  {
    var f :- ResizeOpt(l.frame, l.dims.width, l.dims.height);
    var m :- if l.mask.Some? then ResizeOpt(Some(l.mask.value.mask), l.dims.width, l.dims.height) else Ok(None);
    var m' := if m.Some? then Some(Apply(Denormalize, m.value)) else None;
    Ok(WriteMask(WriteFrame(l, f), m'))
  }

  // ---------------------------------------------------------------- image layer

  /** `ImageLayer.reload` of a decoded picture: a placeholder pair takes the
      picture's own size and the picture is used as is; otherwise a one-sided
      pair is completed by aspect ratio and the picture resized. An alpha
      channel becomes the mask; a picture without one leaves the mask alone.
      A 2-D (grayscale) picture fails at the channel test. */
  function Reload(l: Layer, image: Image): (r: Result<Layer>)
    ensures image.depth == 1 ==> r.Err?
    ensures Native(l.dims) ==> (r.Ok? <==> image.depth != 1)
    ensures Native(l.dims) && r.Ok? ==> r.value.dims == Dims(image.width, image.height)
    ensures !Native(l.dims) ==>
              (r.Ok? <==> ResolveFrame(l.dims, image).Ok? && image.depth != 1) &&
              (r.Ok? ==> r.value.dims == ResolveFrame(l.dims, image).value.0)
    ensures r.Ok? ==> Fixed(r.value.dims) && r.value.frame.Some? && r.value.level == l.level
    ensures r.Ok? ==> r.value.frame.value.width == r.value.dims.width &&
                      r.value.frame.value.height == r.value.dims.height
    ensures r.Ok? && image.depth == 4 ==>
              r.value.frame.value.depth == 3 && r.value.mask.Some? &&
              r.value.mask.value.mask.width == r.value.dims.width &&
              r.value.mask.value.mask.height == r.value.dims.height
    ensures r.Ok? && image.depth != 4 ==> r.value.mask == l.mask && r.value.frame.value.depth == image.depth
    ensures Native(l.dims) && image.depth != 4 && image.depth != 1 ==> r.value.frame == Some(image)
  {
    var (d, img) :- if Native(l.dims) then Ok((Dims(image.width, image.height), image))
                    else ResolveFrame(l.dims, image);
    var l1 := l.(dims := d);
    if img.depth == 1 then Err(IndexOutOfRange)
    else if img.depth == 4 then
      var (rgb, alpha) := SplitAlpha(img);
      Ok(WriteFrame(WriteMask(l1, Some(alpha)), Some(rgb)))
    else Ok(WriteFrame(l1, Some(img)))
  }

  /** After one reload the size is settled: reloading the same picture keeps it. */
  lemma ReloadSettles(l: Layer, image: Image)
    requires Reload(l, image).Ok?
    ensures var l1 := Reload(l, image).value;
            Reload(l1, image).Ok? && Reload(l1, image).value.dims == l1.dims
  {
  }

  /** `ImageLayer.updateDimension`: the base resize, then a reload. */
  function ImageUpdateDimension(l: Layer, image: Image): (r: Result<Layer>)
    ensures r.Ok? ==> UpdateDimension(l).Ok? && r == Reload(UpdateDimension(l).value, image)
    ensures l.frame.None? && l.mask.None? ==> r == Reload(l, image)
  {
    var l1 :- UpdateDimension(l);
    Reload(l1, image)
  }

  // ---------------------------------------------------------------- animated layer

  /** A layer fed by a provider chain by a worker. */
  datatype Animated = Animated(layer: Layer, provider: Providers.Provider, running: bool)

  /** `AnimatedLayer.updateDimension`: the base resize, then the layer's size
      is pushed down the chain as its only parameter. */
  function AnimatedUpdateDimension(a: Animated): (r: Result<Animated>)
    ensures r.Ok? ==> r.value.provider.dims == a.layer.dims && r.value.running == a.running
    ensures r.Ok? <==> UpdateDimension(a.layer).Ok?
    ensures r.Ok? ==> r.value.layer == UpdateDimension(a.layer).value
    ensures r.Ok? ==> Providers.Depth(r.value.provider) == Providers.Depth(a.provider)
  {
    var l :- UpdateDimension(a.layer);
    // a size alone cannot make the chain fail
    var p := Providers.SetParams(a.provider, Providers.DimensionOnly(a.layer.dims)).value;
    Ok(Animated(l, p, a.running))
  }

  /** `AnimatedLayer.command`: the key goes to the chain. */
  function AnimatedCommand(a: Animated, key: int, now: real): (r: (bool, Animated))
    ensures r.0 == Providers.Command(a.provider, key, now).0
    ensures r.1.layer == a.layer && r.1.running == a.running
    ensures !r.0 ==> r.1 == a
  {
    var (claimed, p) := Providers.Command(a.provider, key, now);
    (claimed, a.(provider := p))
  }

  /** `AnimatedLayer.reset`: push the size down, then reset the chain. */
  function AnimatedReset(a: Animated): (r: Result<Animated>)
    ensures r.Ok? <==> AnimatedUpdateDimension(a).Ok? &&
                       Providers.Reset(AnimatedUpdateDimension(a).value.provider).Ok?
    ensures r.Ok? ==> r.value.provider == Providers.Reset(AnimatedUpdateDimension(a).value.provider).value
    ensures r.Ok? ==> r.value.layer == AnimatedUpdateDimension(a).value.layer
  {
    var a1 :- AnimatedUpdateDimension(a);
    var p :- Providers.Reset(a1.provider);
    Ok(a1.(provider := p))
  }

  /** `setProvider`: install a chain and reset it. */
  function SetProvider(a: Animated, p: Providers.Provider): (r: Result<Animated>)
    ensures r == AnimatedReset(a.(provider := p))
    ensures r.Ok? ==> Providers.Depth(r.value.provider) == Providers.Depth(p)
  {
    AnimatedReset(a.(provider := p))
  }

  /** The worker's view of the frame's size: a negative stored entry is
      replaced by the frame's own. */
  function Adopt(d: Dims, f: Option<Image>): (r: Dims)
    ensures f.None? ==> r == d
    ensures f.Some? ==> r.width == (if d.width < 0 then f.value.width else d.width)
    ensures f.Some? ==> r.height == (if d.height < 0 then f.value.height else d.height)
  {
    if f.None? then d
    else Dims(if d.width < 0 then f.value.width else d.width,
              if d.height < 0 then f.value.height else d.height)
  }

  /** One iteration of the worker loop: pull a frame from the chain; an
      exhausted chain flips the level's sign and stops the worker, anything
      else is published. */
  function WorkerStep(a: Animated, now: real): (r: Result<Animated>)
    ensures r.Ok? <==> Providers.Next(a.provider, now).Ok?
    ensures r.Ok? ==> r.value.provider == Providers.Next(a.provider, now).value.0
  {
    var (p, o) :- Providers.Next(a.provider, now);
    if !o.ret then
      Ok(Animated(a.layer.(level := -a.layer.level), p, false))
    else
      var l := a.layer.(dims := Adopt(a.layer.dims, o.frame));
      Ok(Animated(WriteMask(WriteFrame(l, o.frame), o.mask), p, a.running))
  }

  /** An exhausted chain stops the worker and moves the layer to the mirrored
      level without publishing anything. */
  lemma WorkerExhaustion(a: Animated, now: real)
    requires Providers.Next(a.provider, now).Ok? && !Providers.Next(a.provider, now).value.1.ret
    ensures var a' := WorkerStep(a, now).value;
            && !a'.running
            && a'.layer.level == -a.layer.level
            && (a'.layer.level < 0 <==> a.layer.level > 0)
            && a'.layer.(level := a.layer.level) == a.layer
  {
  }

  /** A delivered triple is published as is, and the first real frame fixes
      any size still given as a negative placeholder. */
  lemma WorkerPublishes(a: Animated, now: real)
    requires Providers.Next(a.provider, now).Ok? && Providers.Next(a.provider, now).value.1.ret
    ensures var o := Providers.Next(a.provider, now).value.1;
            var a' := WorkerStep(a, now).value;
            && a'.running == a.running && a'.layer.level == a.layer.level
            && GetFrame(a'.layer) == o.frame
            && GetMask(a'.layer) == (if o.mask.Some? then Some(Normalized(o.mask.value)) else None)
            && (o.frame.Some? ==> a'.layer.dims.width >= 0 && a'.layer.dims.height >= 0)
            && (o.frame.None? ==> a'.layer.dims == a.layer.dims)
            && (a.layer.dims.width >= 0 ==> a'.layer.dims.width == a.layer.dims.width)
            && (a.layer.dims.height >= 0 ==> a'.layer.dims.height == a.layer.dims.height)
  {
  }

  /** The size a layer pushes down reaches every node of its chain above the
      first rescaling decorator. */
  lemma UpdateReachesChain(a: Animated)
    requires AnimatedUpdateDimension(a).Ok?
    ensures var p := AnimatedUpdateDimension(a).value.provider;
            forall i | 0 <= i < |Providers.Chain(p)| && !Providers.RescaledAbove(a.provider, i) ::
              Providers.Chain(p)[i].dims == a.layer.dims
  {
    Providers.DimensionReachesChain(a.provider, a.layer.dims);
  }
}

=== FILE: outcomes.dfy ===
/** Failure-aware return values shared by every module of the model.
    The modelled Python code reports errors by raising; here every such
    exception becomes an `Err` carrying the kind of failure. */
module Outcomes {

  /** A value that may be absent (Python's `None`). */
  datatype Option<+T> = None | Some(value: T)

  /** The exceptions the modelled code can raise. */
  datatype Fault =
    | EmptyResize       // cv2.resize asked for a non-positive width or height
    | ZeroDivision      // Python division by zero
    | IndexOutOfRange   // indexing past either end of a list, deque or shape tuple, or an array on more axes than it has
    | NotLoaded         // a still source read before `reset` loaded its picture
    | NegativeBorder    // cv2.copyMakeBorder given a negative border width
    | ShapeMismatch     // numpy slice assignment between shapes that do not broadcast
    | EmptyImage        // an OpenCV conversion given an image without pixels
    | BadGeometry       // schedule_frame given a frame of the wrong shape
    | Unsupported       // NotImplementedError for a format or a channel count
    | DeviceMissing     // FileNotFoundError for an absent device node

  /** Either a value or the exception that replaced it. */
  datatype Result<+T> = Ok(value: T) | Err(fault: Fault) {

    predicate IsFailure() {
      Err?
    }

    function PropagateFailure<U>(): Result<U>
      requires Err?
    {
      Err(fault)
    }

    function Extract(): T
      requires Ok?
    {
      value
    }
  }
}

=== FILE: pingpong.dfy ===
/** The replay cursor of the boomerang effect: an index that walks a frozen
    list of frames back and forth, turning around at both ends. The same
    rule appears in the Boomerang provider and in the legacy main loop. */
module PingPong {
  import Arith

  /** The current index and the index visited before it. */
  datatype Cursor = Cursor(idx: int, last: int)

  /** The cursor set when a replay starts. */
  const Start: Cursor := Cursor(1, 0)

  /** Both indices lie in a list of `len >= 2` frames and are neighbours. */
  predicate Inv(c: Cursor, len: int) {
    && len >= 2
    && 0 <= c.idx < len && 0 <= c.last < len
    && (c.idx - c.last == 1 || c.last - c.idx == 1)
  }

  /** One step: at either end the two indices swap, which reverses the
      direction; elsewhere the index moves one further away from `last`. */
  function Step(c: Cursor, len: int): (r: Cursor)
    ensures r.last == c.idx
    ensures Inv(c, len) ==> Inv(r, len)
    ensures Inv(c, len) && 0 < c.idx < len - 1 ==> r.idx - c.idx == c.idx - c.last
    ensures Inv(c, len) && (c.idx == 0 || c.idx == len - 1) ==> r.idx - c.idx == c.last - c.idx
  {
    if c.idx == 0 || c.idx == len - 1 then
      Cursor(c.last, c.idx)
    else
      Cursor(c.idx + (if c.idx >= c.last then 1 else -1), c.idx)
  }

  /** The cursor after `n` steps. */
  function Iterate(c: Cursor, len: int, n: nat): Cursor {
    if n == 0 then c else Step(Iterate(c, len, n - 1), len)
  }

  /** Every cursor reached from `Start` satisfies the invariant. */
  lemma {:induction false} IterateKeepsInv(len: int, n: nat)
    requires len >= 2
    ensures Inv(Iterate(Start, len, n), len)
  {
    if n > 0 {
      IterateKeepsInv(len, n - 1);
    }
  }

  /** A triangle wave of period 2 * (len - 1) that starts at 1 and touches
      0 and len - 1 once per period: the independent description of the walk. */
  function Tri(k: int, len: int): (v: int)
    requires len >= 2
    ensures 0 <= v < len
  {
    Wave((k + 1) % (2 * (len - 1)), len)
  }

  /** The triangle wave at phase m of its period 2 * (len - 1): up from 0
      to len - 1, then back down. */
  function Wave(m: int, len: int): (v: int)
    requires len >= 2 && 0 <= m < 2 * (len - 1)
    ensures 0 <= v < len
  {
    if m <= len - 1 then m else 2 * (len - 1) - m
  }

  /** From `Start`, the cursor after `n` steps is (Tri(n), Tri(n - 1)). */
  lemma {:induction false} ClosedForm(len: int, n: nat)
    requires len >= 2
    ensures Iterate(Start, len, n) == Cursor(Tri(n, len), Tri(n - 1, len))
  {
    var p := 2 * (len - 1);
    if n == 0 {
      assert (0 + 1) % p == 1 by { Arith.DivModUnique(1, p, 0, 1); }
      assert (-1 + 1) % p == 0 by { Arith.DivModUnique(0, p, 0, 0); }
    } else {
      ClosedForm(len, n - 1);
      TriStep(len, n - 1);
    }
  }

  /** One step moves a cursor at consecutive positions of the triangle wave
      on to the next pair. */
  lemma TriStep(len: int, k: int)
    requires len >= 2
    ensures Step(Cursor(Tri(k, len), Tri(k - 1, len)), len) == Cursor(Tri(k + 1, len), Tri(k, len))
  {
    var p := 2 * (len - 1);
    PhaseNeighbours(k, p);
    WaveStep(len, (k + 1) % p);
  }

  /** The phases before and after phase (k + 1) % p. */
  lemma PhaseNeighbours(k: int, p: int)
    requires p >= 2
    ensures var m := (k + 1) % p;
            && (k + 1 + 1) % p == (if m + 1 < p then m + 1 else 0)
            && (k - 1 + 1) % p == (if m >= 1 then m - 1 else p - 1)
  {
    var m := (k + 1) % p;
    Arith.ModAddSmall(k + 1, 1, p);
    if m >= 1 {
      Arith.DivModUnique(k, p, (k + 1) / p, m - 1);
    } else {
      Arith.DivModUnique(k, p, (k + 1) / p - 1, p - 1);
    }
  }

  /** The step rule on the wave itself, phase by phase. */
  lemma WaveStep(len: int, m: int)
    requires len >= 2 && 0 <= m < 2 * (len - 1)
    ensures var p := 2 * (len - 1);
            var prev := if m >= 1 then m - 1 else p - 1;
            var next := if m + 1 < p then m + 1 else 0;
            Step(Cursor(Wave(m, len), Wave(prev, len)), len) == Cursor(Wave(next, len), Wave(m, len))
  {
  }

  /** The walk returns to its start after one full period. */
  lemma Periodic(len: int, n: nat)
    requires len >= 2
    ensures Iterate(Start, len, n + 2 * (len - 1)) == Iterate(Start, len, n)
  {
    var p := 2 * (len - 1);
    ClosedForm(len, n);
    ClosedForm(len, n + p);
    Arith.ModAddMultiple(n + 1, 1, p);
    Arith.ModAddMultiple(n, 1, p);
  }

  /** Each end of the list is visited exactly once per period: the walk
      does not linger on its end points. */
  lemma EndsVisitedOnce(len: int, k: int)
    requires len >= 2
    ensures Tri(k, len) == 0 <==> (k + 1) % (2 * (len - 1)) == 0
    ensures Tri(k, len) == len - 1 <==> (k + 1) % (2 * (len - 1)) == len - 1
  {
  }
}

=== FILE: providers.dfy ===
/** The frame-provider chain: a source at the bottom wrapped by decorators,
    each of which owns exactly one child. Parameters travel down the chain,
    key presses travel down until a node claims them, and every `next` pulls
    one frame up through the whole chain. */
module Providers {
  import opened Outcomes
  import opened Images
  import opened Dimension
  import opened Sources
  import Replay
  import Scroller
  import Arith

  /** The three filter decorators differ only in the effect they apply. */
  datatype Effect = Smoothing | Invert | Hologram

  datatype Provider =
    | Leaf(dims: Dims, source: Source)
    | Frequency(dims: Dims, frameTime: real, child: Provider)
    | Looper(dims: Dims, child: Provider)
    | OnPress(dims: Dims, key: int, triggers: nat, lastTriggers: nat, child: Provider)
    | Boomerang(dims: Dims, boom: Replay.Boom, child: Provider)
    | HorizontalShift(dims: Dims, speed: int, padPercentage: real, dx: int, child: Provider)
    | Bodypix(dims: Dims, child: Provider)
    | Filter(dims: Dims, effect: Effect, key: int, triggers: nat, child: Provider)

  /** The number of nodes from `p` down to its source. */
  function Depth(p: Provider): nat {
    if p.Leaf? then 1 else 1 + Depth(p.child)
  }

  /** The nodes from `p` down to its source, outermost first. */
  function Chain(p: Provider): (r: seq<Provider>)
    ensures |r| == Depth(p) && r[0] == p
  {
    if p.Leaf? then [p] else [p] + Chain(p.child)
  }

  /** A decorator with another child. */
  function WithChild(p: Provider, c: Provider): (r: Provider)
    requires !p.Leaf?
    ensures !r.Leaf? && r.child == c && r.dims == p.dims
  {
    p.(child := c)
  }

  /** A placeholder child, so that nodes can be compared apart from their children. */
  const Hole: Provider := Leaf(Unset, Relay(false, None, None))

  /** A node's own state, its child left out. */
  function Local(p: Provider): Provider {
    if p.Leaf? then p else WithChild(p, Hole)
  }

  // ---------------------------------------------------------------- parameters

  /** The keyword arguments of `setParams`; `None` means the key is absent. */
  datatype Options = Options(
    provider: Option<Provider>,
    dimension: Option<Dims>,
    fps: Option<real>,
    key: Option<int>,
    duration: Option<real>,
    fakeLag: Option<real>,
    speed: Option<int>,
    padPercentage: Option<real>)

  /** The arguments a layer sends when its size changes. */
  function DimensionOnly(d: Dims): (o: Options)
    ensures o.dimension == Some(d) && o.provider.None? && o.fps.None? && o.key.None?
  {
    Options(None, Some(d), None, None, None, None, None, None)
  }

  /** An option's new value, or the current one when it is absent. */
  function Given<T>(o: Option<T>, current: T): (r: T)
    ensures o.Some? ==> r == o.value
    ensures o.None? ==> r == current
  {
    if o.Some? then o.value else current
  }

  /** What a decorator passes on to its child: the child itself and the
      options the decorator consumed are removed, and the two rescaling
      decorators replace the size by the placeholder pair. */
  function Forwarded(p: Provider, o: Options): (r: Options)
    requires !p.Leaf?
    ensures r.provider.None? && r.fps == o.fps
    ensures p.HorizontalShift? ==> r.dimension == (if o.dimension.Some? then Some(Unset) else None)
    ensures p.Bodypix? ==> r.dimension == Some(Unset)
    ensures !p.HorizontalShift? && !p.Bodypix? ==> r.dimension == o.dimension
    ensures r.key == (if p.OnPress? || p.Filter? || p.Boomerang? then None else o.key)
    ensures r.duration == (if p.Boomerang? then None else o.duration)
    ensures r.fakeLag == (if p.Boomerang? then None else o.fakeLag)
    ensures r.speed == (if p.HorizontalShift? then None else o.speed)
    ensures r.padPercentage == (if p.HorizontalShift? then None else o.padPercentage)
  {
    var base := o.(provider := None);
    match p
    case OnPress(_, _, _, _, _) => base.(key := None)
    case Filter(_, _, _, _, _) => base.(key := None)
    case Boomerang(_, _, _) => base.(key := None, duration := None, fakeLag := None)
    case HorizontalShift(_, _, _, _, _) =>
      base.(speed := None, padPercentage := None,
            dimension := if o.dimension.Some? then Some(Unset) else None)
    case Bodypix(_, _) => base.(dimension := Some(Unset))
    case _ => base
  }

  /** The frame time the rate limiter derives from a frame rate: the
      reciprocal is taken before the sign test, so a rate of zero fails. */
  function FrameTime(fps: real): (r: Result<real>)
    ensures r.Ok? <==> fps != 0.0
    ensures fps < 0.0 ==> r == Ok(0.0)
    ensures fps > 0.0 ==> r.Ok? && r.value * fps == 1.0
  {
    if fps == 0.0 then Err(ZeroDivision)
    else if fps < 0.0 then Ok(0.0)
    else Ok(1.0 / fps)
  }

  /** `setParams`: every node stores the size; a decorator replaces its
      child when one is given, forwards the rest down, then takes its own
      options. */
  function SetParams(p: Provider, o: Options): (r: Result<Provider>)
    decreases if o.provider.Some? then 1 else 0, p
    ensures r.Ok? ==> r.value.dims == Given(o.dimension, p.dims)
    ensures r.Ok? ==> r.value.Leaf? == p.Leaf?
    ensures r.Ok? && o.provider.None? ==> Depth(r.value) == Depth(p)
    ensures o.fps.None? ==> r.Ok?
    ensures r.Err? ==> o.fps == Some(0.0)
  {
    var dims := Given(o.dimension, p.dims);
    if p.Leaf? then Ok(Leaf(dims, p.source))
    else
      var child := if o.provider.Some? then o.provider.value else p.child;
      var c :- SetParams(child, Forwarded(p, o));
      match p
      case Frequency(_, ft, _) =>
        var ft' :- if o.fps.Some? then FrameTime(o.fps.value) else Ok(ft);
        Ok(Frequency(dims, ft', c))
      case Looper(_, _) => Ok(Looper(dims, c))
      case OnPress(_, k, t, lt, _) => Ok(OnPress(dims, Given(o.key, k), t, lt, c))
      case Boomerang(_, b, _) =>
        Ok(Boomerang(dims, b.(key := Given(o.key, b.key), duration := Given(o.duration, b.duration),
                              fakeLag := Given(o.fakeLag, b.fakeLag)), c))
      case HorizontalShift(_, sp, pct, dx, _) =>
        Ok(HorizontalShift(dims, Given(o.speed, sp), Given(o.padPercentage, pct), dx, c))
      case Bodypix(_, _) => Ok(Bodypix(dims, c))
      case Filter(_, e, k, t, _) => Ok(Filter(dims, e, Given(o.key, k), t, c))
  }

  /** The decorators that rescale their child's output themselves. */
  predicate Rescales(p: Provider) {
    p.HorizontalShift? || p.Bodypix?
  }

  /** Some node above position i of the chain rescales. */
  predicate RescaledAbove(p: Provider, i: int) {
    exists j | 0 <= j < i && j < |Chain(p)| :: Rescales(Chain(p)[j])
  }

  /** A rescaling decorator above position i is either the head itself or
      one above position i - 1 of the child's chain. */
  lemma RescaledAboveShift(p: Provider, i: int)
    requires !p.Leaf? && 0 < i
    ensures RescaledAbove(p, i) <==> Rescales(p) || RescaledAbove(p.child, i - 1)
  {
    assert Chain(p)[0] == p;
    if RescaledAbove(p, i) && !Rescales(p) {
      var j :| 0 <= j < i && j < |Chain(p)| && Rescales(Chain(p)[j]);
      assert Chain(p)[j] == Chain(p.child)[j - 1];
    }
    if RescaledAbove(p.child, i - 1) {
      var j :| 0 <= j < i - 1 && j < |Chain(p.child)| && Rescales(Chain(p.child)[j]);
      assert Chain(p)[j + 1] == Chain(p.child)[j];
    }
  }

  /** One position of the chain after a new size is set. */
  lemma {:induction false} DimensionAt(p: Provider, d: Dims, i: nat)
    requires i < |Chain(p)|
    ensures SetParams(p, DimensionOnly(d)).Ok?
    ensures var q := SetParams(p, DimensionOnly(d)).value;
            && |Chain(q)| == |Chain(p)|
            && Chain(q)[i].dims == (if RescaledAbove(p, i) then Unset else d)
            && Local(Chain(q)[i]).(dims := Unset) == Local(Chain(p)[i]).(dims := Unset)
    decreases p
  {
    var o := DimensionOnly(d);
    var q := SetParams(p, o).value;
    if !p.Leaf? {
      var d' := if Rescales(p) then Unset else d;
      assert Forwarded(p, o) == DimensionOnly(d');
      var j: nat := if i > 0 then i - 1 else 0;
      DimensionAt(p.child, d', j);
      var qc := SetParams(p.child, DimensionOnly(d')).value;
      assert q.child == qc;
      if i > 0 {
        assert Chain(q)[i] == Chain(qc)[i - 1];
        assert Chain(p)[i] == Chain(p.child)[i - 1];
        RescaledAboveShift(p, i);
      }
    }
  }

  /** A new size reaches every node down to the first rescaling decorator;
      every node below it is told to keep its native size. Nothing else in
      any node changes. */
  lemma DimensionReachesChain(p: Provider, d: Dims)
    ensures SetParams(p, DimensionOnly(d)).Ok?
    ensures var q := SetParams(p, DimensionOnly(d)).value;
            |Chain(q)| == |Chain(p)| &&
            forall i | 0 <= i < |Chain(p)| ::
              && Chain(q)[i].dims == (if RescaledAbove(p, i) then Unset else d)
              && Local(Chain(q)[i]).(dims := Unset) == Local(Chain(p)[i]).(dims := Unset)
  {
    DimensionAt(p, d, 0);
    forall i | 0 <= i < |Chain(p)|
      ensures var q := SetParams(p, DimensionOnly(d)).value;
              && Chain(q)[i].dims == (if RescaledAbove(p, i) then Unset else d)
              && Local(Chain(q)[i]).(dims := Unset) == Local(Chain(p)[i]).(dims := Unset)
    {
      DimensionAt(p, d, i);
    }
  }

  // ---------------------------------------------------------------- commands

  /** The key a node claims, if it claims one. */
  function KeyOf(p: Provider): Option<int> {
    match p
    case OnPress(_, k, _, _, _) => Some(k)
    case Filter(_, _, k, _, _) => Some(k)
    case Boomerang(_, b, _) => Some(b.key)
    case _ => None
  }

  /** What a claimed key press does to the node that claims it. */
  function Pressed(p: Provider, now: real): (r: Provider)
    requires KeyOf(p).Some?
    ensures Depth(r) == Depth(p) && KeyOf(r) == KeyOf(p) && r.child == p.child
    ensures p.OnPress? || p.Filter? ==> r == p.(triggers := p.triggers + 1)
    ensures p.Boomerang? ==> r == p.(boom := Replay.Press(p.boom, now))
  {
    match p
    case OnPress(d, k, t, lt, c) => OnPress(d, k, t + 1, lt, c)
    case Filter(d, e, k, t, c) => Filter(d, e, k, t + 1, c)
    case Boomerang(d, b, c) => Boomerang(d, Replay.Press(b, now), c)
  }

  /** `command(keypress=key)`: whether some node claimed the key, and the
      chain afterwards. */
  function Command(p: Provider, key: int, now: real): (r: (bool, Provider))
    ensures Depth(r.1) == Depth(p)
    ensures !r.0 ==> r.1 == p
  {
    if KeyOf(p) == Some(key) then (true, Pressed(p, now))
    else if p.Leaf? then (false, p)
    else
      var (claimed, c) := Command(p.child, key, now);
      (claimed, WithChild(p, c))
  }

  /** Some node above position i of the chain claims `key`. */
  predicate ClaimedAbove(p: Provider, key: int, i: int) {
    exists j | 0 <= j < i && j < |Chain(p)| :: KeyOf(Chain(p)[j]) == Some(key)
  }

  /** Below a node that does not claim the key, "claimed above" shifts by one. */
  lemma ClaimedAboveShift(p: Provider, key: int, i: int)
    requires !p.Leaf? && KeyOf(p) != Some(key) && 0 < i
    ensures ClaimedAbove(p, key, i) <==> ClaimedAbove(p.child, key, i - 1)
  {
    if ClaimedAbove(p, key, i) {
      var j :| 0 <= j < i && j < |Chain(p)| && KeyOf(Chain(p)[j]) == Some(key);
      assert j > 0;
      assert Chain(p)[j] == Chain(p.child)[j - 1];
    }
    if ClaimedAbove(p.child, key, i - 1) {
      var j :| 0 <= j < i - 1 && j < |Chain(p.child)| && KeyOf(Chain(p.child)[j]) == Some(key);
      assert Chain(p)[j + 1] == Chain(p.child)[j];
    }
  }

  /** A key press is claimed exactly when some node of the chain owns the key. */
  lemma {:induction false} CommandClaims(p: Provider, key: int, now: real)
    ensures Command(p, key, now).0 <==> ClaimedAbove(p, key, |Chain(p)|)
    decreases p
  {
    if KeyOf(p) == Some(key) {
      assert KeyOf(Chain(p)[0]) == Some(key);
    } else if p.Leaf? {
      assert Chain(p) == [p];
    } else {
      CommandClaims(p.child, key, now);
      ClaimedAboveShift(p, key, |Chain(p)|);
    }
  }

  /** What a key press does at position i of the chain: only the outermost
      node owning the key reacts, the nodes above it are unchanged apart
      from their child, and the nodes below it are not touched at all. */
  lemma {:induction false} CommandAt(p: Provider, key: int, now: real, i: nat)
    requires i < |Chain(p)|
    ensures var q := Command(p, key, now).1;
            && |Chain(q)| == |Chain(p)|
            && if ClaimedAbove(p, key, i) then Chain(q)[i] == Chain(p)[i]
               else if KeyOf(Chain(p)[i]) == Some(key) then Chain(q)[i] == Pressed(Chain(p)[i], now)
               else Local(Chain(q)[i]) == Local(Chain(p)[i])
    decreases p
  {
    var q := Command(p, key, now).1;
    if i == 0 {
      assert !ClaimedAbove(p, key, 0);
    } else if KeyOf(p) == Some(key) {
      assert Chain(q)[i] == Chain(q.child)[i - 1];
      assert Chain(p)[i] == Chain(p.child)[i - 1];
      assert KeyOf(Chain(p)[0]) == Some(key);
    } else {
      CommandAt(p.child, key, now, i - 1);
      ClaimedAboveShift(p, key, i);
      assert Chain(q)[i] == Chain(q.child)[i - 1];
      assert Chain(p)[i] == Chain(p.child)[i - 1];
    }
  }

  /** The whole dispatch, position by position. */
  lemma CommandDispatch(p: Provider, key: int, now: real)
    ensures var (claimed, q) := Command(p, key, now);
            && (claimed <==> exists i | 0 <= i < |Chain(p)| :: KeyOf(Chain(p)[i]) == Some(key))
            && |Chain(q)| == |Chain(p)|
            && forall i | 0 <= i < |Chain(p)| ::
                 if ClaimedAbove(p, key, i) then Chain(q)[i] == Chain(p)[i]
                 else if KeyOf(Chain(p)[i]) == Some(key) then Chain(q)[i] == Pressed(Chain(p)[i], now)
                 else Local(Chain(q)[i]) == Local(Chain(p)[i])
  {
    CommandClaims(p, key, now);
    CommandAt(p, key, now, 0);
    forall i | 0 <= i < |Chain(p)|
      ensures var q := Command(p, key, now).1;
              if ClaimedAbove(p, key, i) then Chain(q)[i] == Chain(p)[i]
              else if KeyOf(Chain(p)[i]) == Some(key) then Chain(q)[i] == Pressed(Chain(p)[i], now)
              else Local(Chain(q)[i]) == Local(Chain(p)[i])
    {
      CommandAt(p, key, now, i);
    }
  }

  // ---------------------------------------------------------------- reset

  /** The source at the bottom of a chain. */
  function Bottom(p: Provider): (r: Provider)
    ensures r.Leaf?
  {
    if p.Leaf? then p else Bottom(p.child)
  }

  /** `reset` goes straight down to the source; decorators keep their
      state. It fails exactly when the source's own reset does. */
  function Reset(p: Provider): (r: Result<Provider>)
    ensures r.Ok? <==> Sources.Reset(Bottom(p).dims, Bottom(p).source).Ok?
    ensures r.Ok? ==> Depth(r.value) == Depth(p) && r.value.Leaf? == p.Leaf?
    ensures r.Ok? && !p.Leaf? ==> Local(r.value) == Local(p)
    ensures r.Ok? ==> Bottom(r.value) == Leaf(Sources.Reset(Bottom(p).dims, Bottom(p).source).value.0,
                                              Sources.Reset(Bottom(p).dims, Bottom(p).source).value.1)
  {
    if p.Leaf? then
      var (d, s) :- Sources.Reset(p.dims, p.source);
      Ok(Leaf(d, s))
    else
      var c :- Reset(p.child);
      Ok(WithChild(p, c))
  }

  // ---------------------------------------------------------------- next

  /** The library call behind each filter. */
  function EffectOp(e: Effect): LibOp {
    match e
    case Smoothing => Bilateral
    case Invert => BitwiseNot
    case Hologram => LibOp.Hologram
  }

  /** A filter's post-processing: the effect is applied to a present frame
      while the filter has been toggled an odd number of times. */
  function Filtered(e: Effect, triggers: nat, o: Out): (r: Out)
    ensures r.ret == o.ret && r.mask == o.mask && r.frame.Some? == o.frame.Some?
    ensures o.frame.Some? && triggers % 2 == 1 ==> r.frame == Some(Apply(EffectOp(e), o.frame.value))
    ensures triggers % 2 == 0 ==> r == o
  {
    if o.frame.Some? && triggers % 2 == 1 then o.(frame := Some(Apply(EffectOp(e), o.frame.value)))
    else o
  }

  /** The single-channel mask the segmentation service returns for a frame,
      scaled back to the frame's size. */
  function Segment(f: Image): (m: Image)
    ensures m.Valid() && m.height == f.height && m.width == f.width && m.depth == 1
  {
    Image(f.height, f.width, 1, seq(f.height, i => seq(f.width, j => Lib(Segmentation, f.px, i, j))))
  }

  /** The segmentation decorator's post-processing: replace the mask by the
      segmentation of the frame, then resolve the size of both. */
  function Segmented(d: Dims, o: Out): (r: Result<(Dims, Out)>)
    ensures o.frame.None? ==> r == Ok((d, o))
    ensures (Native(d) || Fixed(d)) ==> r.Ok?
    ensures r.Ok? ==> r.value.1.ret == o.ret
    ensures r.Ok? && o.frame.Some? ==>
              r.value.1.frame.Some? && r.value.1.mask.Some? &&
              r.value.1.mask.value.width == r.value.1.frame.value.width &&
              r.value.1.mask.value.height == r.value.1.frame.value.height &&
              r.value.1.mask.value.depth == 1
  {
    if o.frame.None? then Ok((d, o))
    else
      var f := o.frame.value;
      var (d', g, m) :- ResolveFrameMask(d, f, Some(Segment(f)));
      Ok((d', Out(o.ret, Some(g), m)))
  }

  /** The on-press gate's counters and child after the restart check: a
      press while stopped restarts the child, a press while playing stops it. */
  function Gate(t: nat, lt: nat, c: Provider): (r: Result<(nat, nat, Provider)>)
    ensures r.Ok? ==> Depth(r.value.2) == Depth(c)
    ensures t <= lt ==> r == Ok((t, lt, c))
    ensures t > lt ==> (r.Ok? <==> Reset(c).Ok?)
  {
    if t > lt then
      var t' := if lt > 0 then 0 else t;
      var c' :- Reset(c);
      Ok((t', t', c'))
    else Ok((t, lt, c))
  }

  /** `next` of a chain: the chain afterwards and the triple it returns. */
  function Next(p: Provider, now: real): (r: Result<(Provider, Out)>)
    decreases Depth(p)
    ensures r.Ok? ==> Depth(r.value.0) == Depth(p) && r.value.0.Leaf? == p.Leaf?
  {
    match p
    case Leaf(d, s) =>
      var (d', s', o) :- Sources.Next(d, s);
      Ok((Leaf(d', s'), o))
    case Frequency(d, ft, c) =>
      var (c', o) :- Next(c, now);
      Ok((Frequency(d, ft, c'), o))
    case Looper(d, c) =>
      var (c1, o1) :- Next(c, now);
      if o1.ret then Ok((Looper(d, c1), o1))
      else
        var c2 :- Reset(c1);
        var (c3, o2) :- Next(c2, now);
        Ok((Looper(d, c3), o2))
    case OnPress(d, k, t, lt, c) =>
      var (t1, lt1, c1) :- Gate(t, lt, c);
      if t1 > 0 then
        var (c2, o) :- Next(c1, now);
        if o.ret then Ok((OnPress(d, k, t1, lt1, c2), Out(true, o.frame, o.mask)))
        else Ok((OnPress(d, k, 0, 0, c2), Out(true, o.frame, o.mask)))
      else Ok((OnPress(d, k, t1, lt1, c1), Out(true, None, None)))
    case Boomerang(d, b, c) =>
      var (c', o) :- Next(c, now);
      var (b', o') :- Replay.Step(b, o, now);
      Ok((Boomerang(d, b', c'), o'))
    case HorizontalShift(d, sp, pct, dx, c) =>
      var (c', o) :- Next(c, now);
      var (d', dx', o') :- Scroller.Step(d, sp, pct, dx, o);
      Ok((HorizontalShift(d', sp, pct, dx', c'), o'))
    case Bodypix(d, c) =>
      var (c', o) :- Next(c, now);
      var (d', o') :- Segmented(d, o);
      Ok((Bodypix(d', c'), o'))
    case Filter(d, e, k, t, c) =>
      var (c', o) :- Next(c, now);
      Ok((Filter(d, e, k, t, c'), Filtered(e, t, o)))
  }

  // ---------------------------------------------------------------- properties of next

  /** A filter changes only the frame, and only while toggled an odd number
      of times; two more presses restore the previous behaviour. */
  lemma FilterParity(d: Dims, e: Effect, k: int, t: nat, c: Provider, now: real)
    ensures var r := Next(Filter(d, e, k, t, c), now);
            var rc := Next(c, now);
            && (r.Ok? <==> rc.Ok?)
            && (r.Ok? ==> r.value.0.child == rc.value.0 && r.value.1.ret == rc.value.1.ret &&
                          r.value.1.mask == rc.value.1.mask)
            && (r.Ok? && rc.value.1.frame.Some? ==>
                  r.value.1.frame == if t % 2 == 1 then Some(Apply(EffectOp(e), rc.value.1.frame.value))
                                     else rc.value.1.frame)
            && Next(Filter(d, e, k, t + 2, c), now) == (if r.Ok? then Ok((Filter(d, e, k, t + 2, rc.value.0), r.value.1)) else r)
  {
    assert (t + 2) % 2 == t % 2;
  }

  /** The on-press gate: with the usual counter relation, the child is
      played exactly when a press arrived while stopped or no press arrived
      while playing; otherwise nothing is shown and both counters are zero.
      The gate itself always reports a frame as available. */
  lemma OnPressToggles(d: Dims, k: int, t: nat, lt: nat, c: Provider, now: real)
    requires lt <= t
    ensures var r := Next(OnPress(d, k, t, lt, c), now);
            var plays := (lt > 0) != (t > lt);
            var c1 := if t > lt then Reset(c) else Ok(c);
            && (r.Ok? ==> c1.Ok? && r.value.1.ret && r.value.0.triggers == r.value.0.lastTriggers)
            && (!plays ==> (r.Ok? <==> c1.Ok?))
            && (!plays && c1.Ok? ==> r == Ok((OnPress(d, k, 0, 0, c1.value), Out(true, None, None))))
            && (plays ==> (r.Ok? <==> c1.Ok? && Next(c1.value, now).Ok?))
            && (plays && r.Ok? ==>
                  && r.value.0.child == Next(c1.value, now).value.0
                  && r.value.1.frame == Next(c1.value, now).value.1.frame
                  && r.value.1.mask == Next(c1.value, now).value.1.mask
                  && (r.value.0.triggers > 0 <==> Next(c1.value, now).value.1.ret))
  {
  }

  /** A looper over a video that is not rescaled one-sidedly never reports
      exhaustion: when the clip has run out it rewinds and reads again. The
      frame it reads must have a channel axis, since a flat one raises. */
  lemma LooperNeverRunsDry(d0: Dims, d: Dims, clip: seq<Image>, pos: nat, nw: Pos, nh: Pos, now: real)
    requires |clip| > 0 && (Native(d) || Fixed(d))
    requires clip[if pos < |clip| then pos else 0].depth != 1
    ensures var r := Next(Looper(d0, Leaf(d, Video(clip, pos, nw, nh))), now);
            r.Ok? && r.value.1.ret && r.value.1.frame.Some?
  {
    var leaf := Leaf(d, Video(clip, pos, nw, nh));
    if pos >= |clip| {
      var reset := Reset(leaf).value;
      assert reset == Leaf(ResetDims(d, nw, nh), Video(clip, 0, nw, nh));
      assert Fixed(reset.dims);
    }
  }

  /** The outputs of `n` successive `next` calls, and the chain afterwards. */
  function Pull(p: Provider, now: real, n: nat): (r: Result<(Provider, seq<Out>)>)
    ensures r.Ok? ==> |r.value.1| == n && Depth(r.value.0) == Depth(p)
    ensures n > 0 && Next(p, now).Err? ==> r.Err?
    decreases n
  {
    if n == 0 then Ok((p, []))
    else
      var (p1, o) :- Next(p, now);
      var (p2, os) :- Pull(p1, now, n - 1);
      Ok((p2, [o] + os))
  }

  /** The clip frame read at position i of an endless loop over the clip. */
  function ClipAt(clip: seq<Image>, i: nat): (f: Image)
    requires |clip| > 0
    ensures i < |clip| ==> f == clip[i]
    ensures f in clip
  {
    clip[i % |clip|]
  }

  /** What a video leaf with a fixed size shows for a clip frame. */
  function ClipOut(d: Dims, f: Image): Out
    requires Fixed(d)
  {
    Emit(d, f, f.depth == 4).value.1
  }

  /** One call of a looper over a fixed-size video: the frame at the
      position, where the end of the clip counts as its start, and the
      position moves past it. */
  lemma LooperStep(d0: Dims, d: Dims, clip: seq<Image>, pos: nat, nw: Pos, nh: Pos, now: real)
    requires Fixed(d) && 0 < |clip| && pos <= |clip| && clip[pos % |clip|].depth != 1
    ensures var L := |clip|;
            Next(Looper(d0, Leaf(d, Video(clip, pos, nw, nh))), now) ==
              Ok((Looper(d0, Leaf(d, Video(clip, pos % L + 1, nw, nh))), ClipOut(d, clip[pos % L])))
  {
    var L := |clip|;
    if pos < L {
      Arith.DivModUnique(pos, L, 0, pos);
    } else {
      Arith.DivModUnique(pos, L, 1, 0);
      assert Reset(Leaf(d, Video(clip, pos, nw, nh))) == Ok(Leaf(d, Video(clip, 0, nw, nh)));
    }
  }

  /** One more call in front of a run of calls. */
  lemma PullStep(p: Provider, now: real, n: nat, p1: Provider, o: Out)
    requires n > 0 && Next(p, now) == Ok((p1, o)) && Pull(p1, now, n - 1).Ok?
    ensures Pull(p, now, n) == Ok((Pull(p1, now, n - 1).value.0, [o] + Pull(p1, now, n - 1).value.1))
  {
  }

  /** Reading on from the position after `pos` lands on the same clip frame. */
  lemma CycleIndex(pos: nat, L: nat, k: nat)
    requires L > 0 && k > 0
    ensures (pos % L + 1 + (k - 1)) % L == (pos + k) % L
  {
    Arith.ModAddMultiple(pos % L + 1 + (k - 1), pos / L, L);
    assert pos % L + 1 + (k - 1) + L * (pos / L) == pos + k;
  }

  /** Looping a clip: over any number of calls, a looper over a video with
      a fixed size shows the clip's frames in order and starts again from
      the first when the clip runs out. */
  lemma {:induction false} LooperCycles(d0: Dims, d: Dims, clip: seq<Image>, pos: nat, nw: Pos, nh: Pos,
                                         now: real, n: nat)
    requires Fixed(d) && 0 < |clip| && pos <= |clip|
    requires forall i | pos <= i < pos + n :: ClipAt(clip, i).depth != 1
    ensures var r := Pull(Looper(d0, Leaf(d, Video(clip, pos, nw, nh))), now, n);
            r.Ok? && forall k | 0 <= k < n :: r.value.1[k] == ClipOut(d, clip[(pos + k) % |clip|])
    decreases n
  {
    if n > 0 {
      var L := |clip|;
      var pos' := pos % L + 1;
      var next := Looper(d0, Leaf(d, Video(clip, pos', nw, nh)));
      assert ClipAt(clip, pos).depth != 1;
      LooperStep(d0, d, clip, pos, nw, nh, now);
      forall i | pos' <= i < pos' + (n - 1)
        ensures ClipAt(clip, i).depth != 1
      {
        CycleIndex(pos, L, i - pos' + 1);
        assert ClipAt(clip, i) == ClipAt(clip, pos + (i - pos' + 1));
      }
      LooperCycles(d0, d, clip, pos', nw, nh, now, n - 1);
      var rest := Pull(next, now, n - 1).value.1;
      PullStep(Looper(d0, Leaf(d, Video(clip, pos, nw, nh))), now, n, next, ClipOut(d, clip[pos % L]));
      var outs := [ClipOut(d, clip[pos % L])] + rest;
      forall k | 0 <= k < n
        ensures outs[k] == ClipOut(d, clip[(pos + k) % L])
      {
        if k > 0 {
          CycleIndex(pos, L, k);
        }
      }
    }
  }

  /** Five reads cycling through three frames are 1, 2, 3, 1, 2. */
  lemma FiveOfThree(outs: seq<Out>, d: Dims, f1: Image, f2: Image, f3: Image)
    requires Fixed(d) && |outs| == 5
    requires forall k | 0 <= k < 5 :: outs[k] == ClipOut(d, [f1, f2, f3][(0 + k) % 3])
    ensures outs == [ClipOut(d, f1), ClipOut(d, f2), ClipOut(d, f3), ClipOut(d, f1), ClipOut(d, f2)]
  {
    assert outs[3] == ClipOut(d, [f1, f2, f3][3 % 3]) && outs[4] == ClipOut(d, [f1, f2, f3][4 % 3]);
  }

  /** The looper over a three-frame clip shows 1, 2, 3, 1, 2 in five calls. */
  lemma LooperExample(d: Dims, f1: Image, f2: Image, f3: Image, now: real)
    requires Fixed(d) && f1.depth != 1 && f2.depth != 1 && f3.depth != 1
    ensures var r := Pull(Looper(d, Leaf(d, Video([f1, f2, f3], 0, 1, 1))), now, 5);
            r.Ok? && r.value.1 == [ClipOut(d, f1), ClipOut(d, f2), ClipOut(d, f3), ClipOut(d, f1), ClipOut(d, f2)]
  {
    forall i | 0 <= i < 5
      ensures ClipAt([f1, f2, f3], i).depth != 1
    {
    }
    LooperCycles(d, d, [f1, f2, f3], 0, 1, 1, now, 5);
    FiveOfThree(Pull(Looper(d, Leaf(d, Video([f1, f2, f3], 0, 1, 1))), now, 5).value.1, d, f1, f2, f3);
  }

  /** The rate limiter passes its child's output through unchanged; its
      waiting is not part of the model. */
  lemma FrequencyPassesThrough(d: Dims, ft: real, c: Provider, now: real)
    ensures var r := Next(Frequency(d, ft, c), now);
            && (r.Ok? <==> Next(c, now).Ok?)
            && (r.Ok? ==> r.value == (Frequency(d, ft, Next(c, now).value.0), Next(c, now).value.1))
  {
  }

  /** The scroller's output always fills its window exactly, whatever the
      child delivered, and the mask has the window's size too. */
  lemma ShiftFillsWindow(d: Dims, sp: int, pct: real, dx: int, c: Provider, now: real)
    requires Fixed(d)
    ensures var r := Next(HorizontalShift(d, sp, pct, dx, c), now);
            r.Ok? && Next(c, now).value.1.frame.Some? ==>
              && r.value.1.frame.Some? && r.value.1.frame.value.width == d.width
              && r.value.1.frame.value.height == d.height
              && r.value.1.mask.Some? && r.value.1.mask.value.width == d.width
              && r.value.1.mask.value.height == d.height
              && r.value.0.dx == dx + sp
  {
  }
}

=== FILE: replay.dfy ===
/** The boomerang decorator's own state: a rolling history of what its
    child produced, and on a key press a frozen copy of that history played
    back and forth. */
module Replay {
  import opened Outcomes
  import opened Images
  import opened History
  import opened Sources
  import PingPong

  /** One recorded child output. */
  datatype Snapshot = Snapshot(frame: Option<Image>, mask: Option<Image>)

  datatype Status = Inactive | Active | Transition

  datatype Boom = Boom(
    key: int,
    duration: real,                 // seconds of history kept
    fakeLag: real,                  // seconds the replay keeps showing after a stop
    status: Status,
    history: seq<Entry<Snapshot>>,  // oldest first
    replay: seq<Entry<Snapshot>>,   // the history frozen by the last start
    cursor: PingPong.Cursor,
    triggerTime: real)

  /** The state a new boomerang starts in; the replay fields are not read
      before the first press. */
  function Idle(key: int, duration: real, fakeLag: real): (b: Boom)
    ensures b.status == Inactive && b.history == []
    ensures b.key == key && b.duration == duration && b.fakeLag == fakeLag
  {
    Boom(key, duration, fakeLag, Inactive, [], [], PingPong.Start, 0.0)
  }

  /** A running or stopping replay keeps a valid back-and-forth cursor. */
  predicate Good(b: Boom) {
    b.status != Inactive ==> PingPong.Inv(b.cursor, |b.replay|)
  }

  /** The frame the replay shows: the replay is played from its newest end,
      and the index may run negative as Python allows. */
  function Shown(b: Boom): (r: Result<Snapshot>)
    ensures PingPong.Inv(b.cursor, |b.replay|) ==>
              r == Ok(b.replay[|b.replay| - 1 - b.cursor.idx].item)
  {
    var e :- PyGet(b.replay, |b.replay| - 1 - b.cursor.idx);
    Ok(e.item)
  }

  /** One replay step: the frame shown and the cursor moved on. */
  function Advance(b: Boom): (r: Result<(Snapshot, PingPong.Cursor)>)
    ensures r.Ok? ==> r.value.1 == PingPong.Step(b.cursor, |b.replay|)
    ensures PingPong.Inv(b.cursor, |b.replay|) ==>
              r.Ok? && r.value.0 == b.replay[|b.replay| - 1 - b.cursor.idx].item
  {
    var shown :- Shown(b);
    var c := PingPong.Step(b.cursor, |b.replay|);
    // the pacing reads the timestamps at both new cursor positions
    var paceTo :- PyGet(b.replay, c.idx);
    var paceFrom :- PyGet(b.replay, c.last);
    Ok((shown, c))
  }

  /** The key press: start a replay of the current history, or let a
      running one go into its stopping phase. */
  function Press(b: Boom, now: real): (r: Boom)
    ensures r.triggerTime == now && r.history == b.history
    ensures r.key == b.key && r.duration == b.duration && r.fakeLag == b.fakeLag
    ensures b.status == Active <==> r.status == Transition
    ensures b.status != Active ==>
              r.status == Active && r.replay == b.history && r.cursor == PingPong.Start
    ensures b.status == Active ==> r.replay == b.replay && r.cursor == b.cursor
  {
    match b.status
    case Active => b.(status := Transition, triggerTime := now)
    case _ => b.(status := Active, cursor := PingPong.Start, replay := b.history, triggerTime := now)
  }

  /** The boomerang's `next` after its child produced `o` at time `now`:
      record `o`, then either pass it through, show the next replay frame,
      or keep showing the frozen one until the stop delay has elapsed. */
  function Step(b: Boom, o: Out, now: real): (r: Result<(Boom, Out)>)
    ensures b.duration >= 0.0 && b.status == Inactive ==> r.Ok? && r.value.1 == o
    ensures r.Ok? ==> var b' := r.value.0;
              b'.key == b.key && b'.duration == b.duration && b'.fakeLag == b.fakeLag &&
              b'.replay == b.replay && b'.triggerTime == b.triggerTime &&
              0 < |b'.history| && b'.history[|b'.history| - 1] == Entry(Snapshot(o.frame, o.mask), now)
  {
    var h :- Record(b.history, Snapshot(o.frame, o.mask), b.duration, now);
    var b1 := b.(history := h);
    match b.status
    case Inactive => Ok((b1, o))
    case Active =>
      var (shown, c) :- Advance(b);
      Ok((b1.(cursor := c), Out(true, shown.frame, shown.mask)))
    case Transition =>
      if now < b.triggerTime + b.fakeLag then
        var shown :- Shown(b);
        Ok((b1, Out(o.ret, shown.frame, shown.mask)))
      else Ok((b1.(status := Inactive), o))
  }

  /** While a replay runs, every step shows the frame under the cursor,
      claims to have produced something, keeps running and moves the cursor
      one step along the back-and-forth walk. */
  lemma StepActive(b: Boom, o: Out, now: real)
    requires b.status == Active
    ensures var r := Step(b, o, now);
            r.Ok? ==> r.value.0.status == Active && r.value.1.ret
    ensures var r := Step(b, o, now);
            b.duration >= 0.0 && Good(b) ==>
              r.Ok? && Good(r.value.0) && r.value.0.cursor == PingPong.Step(b.cursor, |b.replay|) &&
              r.value.1 == Out(true, b.replay[|b.replay| - 1 - b.cursor.idx].item.frame,
                                     b.replay[|b.replay| - 1 - b.cursor.idx].item.mask)
  {
  }

  /** After a second press the frozen frame stays on screen, over the
      child's own success flag, until the stop delay has elapsed; then the
      replay ends and the child's output passes through again. */
  lemma StepTransition(b: Boom, o: Out, now: real)
    requires b.status == Transition
    ensures var r := Step(b, o, now);
            r.Ok? ==> (r.value.0.status == Inactive <==> now >= b.triggerTime + b.fakeLag) &&
                      r.value.0.cursor == b.cursor
    ensures var r := Step(b, o, now);
            r.Ok? && now >= b.triggerTime + b.fakeLag ==> r.value.1 == o
    ensures var r := Step(b, o, now);
            now < b.triggerTime + b.fakeLag && b.duration >= 0.0 && Good(b) ==>
              r.Ok? && r.value.1 == Out(o.ret, b.replay[|b.replay| - 1 - b.cursor.idx].item.frame,
                                               b.replay[|b.replay| - 1 - b.cursor.idx].item.mask)
  {
  }

  /** A press keeps the replay safe exactly when it starts one over a
      history of at least two frames, or stops a safe one. */
  lemma PressIsGood(b: Boom, now: real)
    requires Good(b)
    ensures b.status == Active ==> Good(Press(b, now))
    ensures b.status != Active ==> (Good(Press(b, now)) <==> |b.history| >= 2)
  {
  }

  /** Started on a history of fewer than two frames, the first replayed
      frame already fails: with one frame the pacing reads index 2, with
      none the shown frame is at index -2. */
  lemma ShortReplayFails(b: Boom, o: Out, now: real)
    requires b.status == Active && b.cursor == PingPong.Start && |b.replay| < 2
    ensures Step(b, o, now).Err?
  {
  }

  /** While a replay runs from its start, the n-th step shows the frame at
      the n-th position of the triangle wave, counted from the newest end. */
  lemma {:induction false} ReplayFollowsTriangle(b: Boom, o: Out, now: real, n: nat)
    requires b.status == Active && b.duration >= 0.0 && |b.replay| >= 2
    requires b.cursor == PingPong.Iterate(PingPong.Start, |b.replay|, n)
    ensures var L := |b.replay|;
            var r := Step(b, o, now);
            r.Ok? && r.value.0.cursor == PingPong.Iterate(PingPong.Start, L, n + 1) &&
            r.value.1.frame == b.replay[L - 1 - PingPong.Tri(n, L)].item.frame &&
            r.value.1.mask == b.replay[L - 1 - PingPong.Tri(n, L)].item.mask
  {
    var L := |b.replay|;
    PingPong.IterateKeepsInv(L, n);
    PingPong.ClosedForm(L, n);
    StepActive(b, o, now);
    assert PingPong.Iterate(PingPong.Start, L, n + 1) == PingPong.Step(b.cursor, L);
  }
}

=== FILE: scroller.dfy ===
/** The horizontal-shift decorator: it scales its child's frame to the
    height of a fixed window and scrolls it sideways by `speed` columns per
    frame, with `pad` black columns between repetitions. A frame wider than
    the window is read through the window (wide case); a narrower one is
    drawn onto the window at a moving offset (narrow case). */
module Scroller {
  import opened Outcomes
  import opened Images
  import opened Dimension
  import opened Sources
  import Strip
  import Arith

  /** Python's int() on a float: truncation toward zero. */
  function Truncate(x: real): (r: int)
    ensures x >= 0.0 ==> r as real <= x < r as real + 1.0
    ensures x < 0.0 ==> r as real - 1.0 < x <= r as real
  {
    if x >= 0.0 then x.Floor else -((-x).Floor)
  }

  /** The window the scroller settles on, and the frame after the rescale
      of the height-only case; the window's width then follows the frame. */
  function Window(d: Dims, f: Image): (r: Result<(Pos, Pos, Image)>)
    requires !Native(d)
    ensures Fixed(d) ==> r == Ok((d.width, d.height, f))
    ensures d.width > 0 && d.height <= 0 ==> r == Ok((d.width, f.height, f))
    ensures d.width <= 0 ==> (r.Ok? <==> f.width * d.height / f.height > 0)
    ensures d.width <= 0 && r.Ok? ==>
              r.value.0 == f.width * d.height / f.height && r.value.1 == d.height
    ensures r.Ok? ==> r.value.2.depth == f.depth
  {
    if d.width > 0 && d.height > 0 then Ok((d.width, d.height, f))
    else if d.width > 0 then Ok((d.width, f.height, f))
    else
      var g :- Resize(f, f.width * d.height / f.height, d.height);
      Ok((g.width, d.height, g))
  }

  /** What one step works on: the window, the frame scaled to the window's
      height with its mask scaled alike, and the padding. */
  datatype Canvas = Canvas(width: Pos, height: Pos, frame: Image, mask: Option<Image>, pad: int)

  /** The frame and the mask have the window's height and the same width. */
  predicate Fits(c: Canvas) {
    && c.frame.Valid() && c.frame.height == c.height
    && (c.mask.Some? ==>
          c.mask.value.Valid() && c.mask.value.height == c.height && c.mask.value.width == c.frame.width)
  }

  /** Settles the window, scales frame and mask to its height keeping the
      frame's aspect ratio, and computes the padding as int(width * pct). */
  function Layout(d: Dims, pct: real, f: Image, m: Option<Image>): (r: Result<Canvas>)
    requires !Native(d)
    ensures r.Ok? ==> Fits(r.value) && r.value.frame.depth == f.depth
    ensures r.Ok? ==> (r.value.mask.Some? <==> m.Some?)
    ensures r.Ok? ==> r.value.pad == Truncate(r.value.width as real * pct)
    ensures Fixed(d) ==> r.Ok? ==> r.value.width == d.width && r.value.height == d.height
    ensures d.width > 0 && d.height <= 0 ==> r.Ok? ==> r.value.width == d.width && r.value.height == f.height
  {
    var (w, h, f1) :- Window(d, f);
    var (g, m') :- ScaleToHeight(f1, m, h);
    Ok(Canvas(w, h, g, m', Truncate(w as real * pct)))
  }

  /** The frame scaled to height `h` keeping its aspect ratio, and the mask
      scaled to the frame's new size. */
  function ScaleToHeight(f: Image, m: Option<Image>, h: Pos): (r: Result<(Image, Option<Image>)>)
    ensures r.Ok? ==> r.value.0.Valid() && r.value.0.height == h && r.value.0.depth == f.depth
    ensures r.Ok? ==> (r.value.1.Some? <==> m.Some?)
    ensures r.Ok? && m.Some? ==>
              r.value.1.value.Valid() && r.value.1.value.height == h && r.value.1.value.width == r.value.0.width
  {
    var g :- Resize(f, f.width * h / f.height, h);
    Arith.MulDivCancel(g.width, h);
    var m' :- ResizeOpt(m, g.width * h / g.height, h);
    Ok((g, m'))
  }

  /** The mask, or an opaque one when there is none (the wide case makes
      one when there is padding; the narrow case paints opacity where the
      frame lands). */
  function MaskOrOpaque(c: Canvas): (m: Image)
    requires Fits(c)
    ensures m.Valid() && m.height == c.height && m.width == c.frame.width
  {
    if c.mask.Some? then c.mask.value else Fill(c.height, c.frame.width, 1, Solid)
  }

  /** Row i of the incoming mask, or an opaque row. */
  function InMask(c: Canvas, i: nat): (r: seq<Pixel>)
    requires Fits(c) && i < c.height
    ensures |r| == c.frame.width
  {
    MaskOrOpaque(c).px[i]
  }

  /** Column `col` of a row padded on the right with `zero`. */
  function Padded(row: seq<Pixel>, zero: Pixel, col: int): Pixel {
    if 0 <= col < |row| then row[col] else zero
  }

  /** Column `col` of the frame padded on the right with black. */
  function FrameAt(c: Canvas, i: nat, col: int): Pixel
    requires Fits(c) && i < c.height
  {
    Padded(c.frame.px[i], Black, col)
  }

  /** Column `col` of the mask padded on the right with transparency; a
      missing mask counts as fully opaque over the frame. */
  function MaskAt(c: Canvas, i: nat, col: int): Pixel
    requires Fits(c) && i < c.height
  {
    Padded(InMask(c, i), Clear, col)
  }

  /** Row i of the output frame. Wide case: the row padded with black and
      read through the window from column dx. Narrow case: the row drawn on
      a black canvas of the window's width plus padding at column dx,
      wrapping around, cut back to the window. */
  function OutFrame(c: Canvas, dx: int, i: nat): (r: seq<Pixel>)
    requires Fits(c) && c.pad >= 0 && i < c.height
    ensures |r| == c.width
  {
    if c.frame.width > c.width then
      Strip.WideRow(Strip.PadRight(c.frame.px[i], c.pad as nat, Black), dx, c.width)
    else Strip.NarrowRow(c.frame.px[i], dx, c.width, c.pad as nat, Black)
  }

  /** Row i of the output mask, built like the frame row; in the wide case
      without a mask or padding the window stays opaque. */
  function OutMask(c: Canvas, dx: int, i: nat): (r: seq<Pixel>)
    requires Fits(c) && c.pad >= 0 && i < c.height
    ensures |r| == c.width
  {
    if c.frame.width > c.width then
      if c.mask.None? && c.pad == 0 then seq(c.width, _ => Solid)
      else Strip.WideRow(Strip.PadRight(InMask(c, i), c.pad as nat, Clear), dx, c.width)
    else Strip.NarrowRow(InMask(c, i), dx, c.width, c.pad as nat, Clear)
  }

  /** The window's frame and mask rows. */
  function Rows(c: Canvas, dx: int): (r: (seq<seq<Pixel>>, seq<seq<Pixel>>))
    requires Fits(c) && c.pad >= 0
    ensures |r.0| == c.height && forall i | 0 <= i < c.height :: |r.0[i]| == c.width
    ensures |r.1| == c.height && forall i | 0 <= i < c.height :: |r.1[i]| == c.width
  {
    (seq(c.height, i requires 0 <= i < c.height => OutFrame(c, dx, i)),
     seq(c.height, i requires 0 <= i < c.height => OutMask(c, dx, i)))
  }

  /** The length after which the picture repeats. */
  function Period(c: Canvas): int {
    if c.frame.width > c.width then c.frame.width + c.pad else c.width + c.pad
  }

  /** The decorator's `next` after its child produced `o`: the stored
      dimension and scroll offset afterwards, and the window's frame and mask. */
  function Step(d: Dims, speed: int, pct: real, dx: int, o: Out): (r: Result<(Dims, int, Out)>)
    ensures o.frame.None? || Native(d) ==> r == Ok((d, dx, o))
    ensures o.frame.Some? && !Native(d) && r.Ok? ==> Layout(d, pct, o.frame.value, o.mask).Ok?
    ensures o.frame.Some? && !Native(d) && r.Ok? && Layout(d, pct, o.frame.value, o.mask).Ok? ==>
              var c := Layout(d, pct, o.frame.value, o.mask).value;
              && c.pad >= 0
              && r.value.0 == Dims(c.width, c.height) && r.value.1 == dx + speed
              && r.value.2.ret == o.ret
              && r.value.2.frame.Some? && r.value.2.frame.value.Valid()
              && r.value.2.frame.value.width == c.width && r.value.2.frame.value.height == c.height
              && r.value.2.frame.value.depth == 3
              && r.value.2.mask.Some? && r.value.2.mask.value.Valid()
              && r.value.2.mask.value.width == c.width && r.value.2.mask.value.height == c.height
    ensures o.frame.Some? && !Native(d) && Layout(d, pct, o.frame.value, o.mask).Ok? ==>
              (r.Ok? <==> Layout(d, pct, o.frame.value, o.mask).value.pad >= 0 && o.frame.value.depth == 3)
    // the window is a three-channel array: a flat frame has too few axes for
    // the channel slice, and any other channel count does not broadcast
    ensures o.frame.Some? && !Native(d) && Layout(d, pct, o.frame.value, o.mask).Ok?
            && Layout(d, pct, o.frame.value, o.mask).value.pad >= 0 && o.frame.value.depth != 3 ==>
              r == Err(if o.frame.value.depth == 1 then IndexOutOfRange else ShapeMismatch)
    ensures Fixed(d) && r.Ok? ==> r.value.0 == d
  {
    if o.frame.None? || Native(d) then Ok((d, dx, o))
    else
      var c :- Layout(d, pct, o.frame.value, o.mask);
      if c.pad < 0 then Err(NegativeBorder)
      else if c.frame.depth == 1 then Err(IndexOutOfRange)
      else if c.frame.depth != 3 then Err(ShapeMismatch)
      else
        var (rows, mrows) := Rows(c, dx);
        Ok((Dims(c.width, c.height), dx + speed,
            Out(o.ret, Some(Image(c.height, c.width, 3, rows)), Some(Image(c.height, c.width, 1, mrows)))))
  }

  /** Pixel (i, j) of the window, described directly: a wide frame is read
      from column dx on and moves left as dx grows, a narrow one is placed at
      column dx and moves right; both wrap around the padded frame. */
  function Scrolled(c: Canvas, dx: int, i: nat, j: int): Pixel
    requires Fits(c) && c.pad >= 0 && i < c.height
  {
    if c.frame.width > c.width then FrameAt(c, i, (dx + j) % (c.frame.width + c.pad))
    else FrameAt(c, i, (j - dx) % (c.width + c.pad))
  }

  /** The mask pixel (i, j) of the window, described the same way. */
  function ScrolledMask(c: Canvas, dx: int, i: nat, j: int): Pixel
    requires Fits(c) && c.pad >= 0 && i < c.height
  {
    if c.frame.width > c.width then MaskAt(c, i, (dx + j) % (c.frame.width + c.pad))
    else MaskAt(c, i, (j - dx) % (c.width + c.pad))
  }

  /** A row padded by `pad` with `zero` and read through a window of width
      w from column dx shows column (dx + j) of the padded row, cyclically. */
  lemma WideRead(row: seq<Pixel>, pad: nat, zero: Pixel, dx: int, w: nat)
    requires w < |row|
    ensures forall j | 0 <= j < w ::
              Strip.WideRow(Strip.PadRight(row, pad, zero), dx, w)[j] == Padded(row, zero, (dx + j) % (|row| + pad))
  {
    Strip.WideRowIsCyclicRead(Strip.PadRight(row, pad, zero), dx, w);
  }

  /** A row drawn at column dx on a zero canvas of width w + pad, cut back
      to w, shows column (j - dx) of the padded row, cyclically. */
  lemma NarrowRead(row: seq<Pixel>, pad: nat, zero: Pixel, dx: int, w: nat)
    requires |row| <= w
    ensures forall j | 0 <= j < w ::
              Strip.NarrowRow(row, dx, w, pad, zero)[j] == Padded(row, zero, (j - dx) % (w + pad))
  {
    Strip.NarrowRowIsCyclicRead(row, dx, w, pad, zero);
  }

  /** Row i of the output frame is the direct description's row. */
  lemma OutFrameReads(c: Canvas, dx: int, i: nat, pad: nat)
    requires Fits(c) && c.pad == pad && i < c.height
    ensures forall j | 0 <= j < c.width :: OutFrame(c, dx, i)[j] == Scrolled(c, dx, i, j)
  {
    var row := c.frame.px[i];
    if c.frame.width > c.width {
      assert OutFrame(c, dx, i) == Strip.WideRow(Strip.PadRight(row, pad, Black), dx, c.width);
      WideRead(row, pad, Black, dx, c.width);
    } else {
      assert OutFrame(c, dx, i) == Strip.NarrowRow(row, dx, c.width, pad, Black);
      NarrowRead(row, pad, Black, dx, c.width);
    }
  }

  /** Row i of the output mask is the direct description's row. */
  lemma OutMaskReads(c: Canvas, dx: int, i: nat, pad: nat)
    requires Fits(c) && c.pad == pad && i < c.height
    ensures forall j | 0 <= j < c.width :: OutMask(c, dx, i)[j] == ScrolledMask(c, dx, i, j)
  {
    if c.frame.width <= c.width {
      NarrowMaskReads(c, dx, i, pad);
    } else if c.mask.None? && pad == 0 {
      assert OutMask(c, dx, i) == seq(c.width, _ => Solid);
    } else {
      WideMaskReads(c, dx, i, pad);
    }
  }

  lemma NarrowMaskReads(c: Canvas, dx: int, i: nat, pad: nat)
    requires Fits(c) && c.pad == pad && i < c.height && c.frame.width <= c.width
    ensures forall j | 0 <= j < c.width :: OutMask(c, dx, i)[j] == ScrolledMask(c, dx, i, j)
  {
    var row := InMask(c, i);
    assert OutMask(c, dx, i) == Strip.NarrowRow(row, dx, c.width, pad, Clear);
    NarrowRead(row, pad, Clear, dx, c.width);
  }

  lemma WideMaskReads(c: Canvas, dx: int, i: nat, pad: nat)
    requires Fits(c) && c.pad == pad && i < c.height && c.frame.width > c.width
    requires c.mask.Some? || pad > 0
    ensures forall j | 0 <= j < c.width :: OutMask(c, dx, i)[j] == ScrolledMask(c, dx, i, j)
  {
    var row := InMask(c, i);
    assert OutMask(c, dx, i) == Strip.WideRow(Strip.PadRight(row, pad, Clear), dx, c.width);
    WideRead(row, pad, Clear, dx, c.width);
  }

  /** Every pixel of the window is the one the direct description names. */
  lemma RowsRead(c: Canvas, dx: int)
    requires Fits(c) && c.pad >= 0
    ensures forall i, j | 0 <= i < c.height && 0 <= j < c.width :: Rows(c, dx).0[i][j] == Scrolled(c, dx, i, j)
    ensures forall i, j | 0 <= i < c.height && 0 <= j < c.width :: Rows(c, dx).1[i][j] == ScrolledMask(c, dx, i, j)
  {
    forall i | 0 <= i < c.height
      ensures forall j | 0 <= j < c.width :: Rows(c, dx).0[i][j] == Scrolled(c, dx, i, j)
      ensures forall j | 0 <= j < c.width :: Rows(c, dx).1[i][j] == ScrolledMask(c, dx, i, j)
    {
      OutFrameReads(c, dx, i, c.pad as nat);
      OutMaskReads(c, dx, i, c.pad as nat);
    }
  }

  lemma StepEmitsRows(d: Dims, speed: int, pct: real, dx: int, o: Out)
    requires o.frame.Some? && !Native(d) && Step(d, speed, pct, dx, o).Ok?
    ensures var c := Layout(d, pct, o.frame.value, o.mask).value;
            var out := Step(d, speed, pct, dx, o).value.2;
            Fits(c) && c.pad >= 0 && out.frame.value.px == Rows(c, dx).0 && out.mask.value.px == Rows(c, dx).1
  {
  }

  /** Every pixel the scroller produces is the one the direct description
      names, for the canvas `Layout` builds from the child's output. */
  lemma StepReads(d: Dims, speed: int, pct: real, dx: int, o: Out)
    requires o.frame.Some? && !Native(d) && Step(d, speed, pct, dx, o).Ok?
    ensures var c := Layout(d, pct, o.frame.value, o.mask).value;
            var out := Step(d, speed, pct, dx, o).value.2;
            forall i, j | 0 <= i < c.height && 0 <= j < c.width ::
              && out.frame.value.px[i][j] == Scrolled(c, dx, i, j)
              && out.mask.value.px[i][j] == ScrolledMask(c, dx, i, j)
  {
    var c := Layout(d, pct, o.frame.value, o.mask).value;
    StepEmitsRows(d, speed, pct, dx, o);
    RowsRead(c, dx);
  }

  /** Moving the offset by a whole period shows the same picture. */
  lemma ScrolledPeriodic(c: Canvas, dx: int, k: int, i: nat, j: int)
    requires Fits(c) && c.pad >= 0 && i < c.height
    ensures Scrolled(c, dx + k * Period(c), i, j) == Scrolled(c, dx, i, j)
    ensures ScrolledMask(c, dx + k * Period(c), i, j) == ScrolledMask(c, dx, i, j)
  {
    var p := Period(c);
    if c.frame.width > c.width {
      Arith.ModAddMultiple(dx + j, k, p);
      assert dx + k * p + j == dx + j + p * k;
    } else {
      Arith.ModAddMultiple(j - dx, -k, p);
      assert j - (dx + k * p) == j - dx + p * (-k);
    }
  }
}

=== FILE: shifting.dfy ===
/** `shift_image`: translate an image by (dx, dy), filling the uncovered
    border with zeros. The code rolls the array cyclically with np.roll and
    then blanks the rows and columns that wrapped around. */
module Shifting {
  import Arith

  /** np.roll of a sequence by k: element i comes from position i - k, cyclically. */
  function Roll<T>(s: seq<T>, k: int): (r: seq<T>)
    ensures |r| == |s|
    ensures forall i | 0 <= i < |s| :: r[i] == s[(i - k) % |s|]
  {
    if |s| == 0 then s else seq(|s|, i requires 0 <= i < |s| => s[(i - k) % |s|])
  }

  /** The index range a shift by k blanks: a[:k] for k > 0 and a[k:] for k < 0.
      Python clamps both slices to the sequence, which the comparisons below do too. */
  function Blanked(n: int, k: int): (int, int) {
    if k > 0 then (0, k) else if k < 0 then (n + k, n) else (0, 0)
  }

  /** Element i of a sequence of length n rolled by k and then blanked by
      `Blanked(n, k)`: the original element i - k if it exists, else blank. */
  lemma RollThenBlank(n: int, k: int, i: int)
    requires 0 <= i < n
    ensures var (lo, hi) := Blanked(n, k);
            (lo <= i < hi) <==> !(0 <= i - k < n)
    ensures !(Blanked(n, k).0 <= i < Blanked(n, k).1) ==> (i - k) % n == i - k
  {
    if 0 <= i - k < n {
      Arith.DivModUnique(i - k, n, 0, i - k);
    }
  }

  /** The grid as the code computes it: roll rows by dy, roll every row by
      dx, blank the wrapped rows, then blank the wrapped columns. */
  function ShiftImage<T>(img: seq<seq<T>>, w: nat, dx: int, dy: int, zero: T): (r: seq<seq<T>>)
    requires forall i | 0 <= i < |img| :: |img[i]| == w
    ensures |r| == |img| && forall i | 0 <= i < |r| :: |r[i]| == w
  {
    var n := |img|;
    var rows := Roll(img, dy);
    var (r0, r1) := Blanked(n, dy);
    var (c0, c1) := Blanked(w, dx);
    seq(n, i requires 0 <= i < n =>
      seq(w, j requires 0 <= j < w =>
        if r0 <= i < r1 || c0 <= j < c1 then zero else Roll(rows[i], dx)[j]))
  }

  /** Pixel (i, j) of the shifted image is pixel (i - dy, j - dx) of the
      original when that exists, and zero otherwise, for every shift
      including those larger than the image. */
  lemma ShiftImageReads<T>(img: seq<seq<T>>, w: nat, dx: int, dy: int, zero: T)
    requires forall i | 0 <= i < |img| :: |img[i]| == w
    ensures forall i, j | 0 <= i < |img| && 0 <= j < w ::
              ShiftImage(img, w, dx, dy, zero)[i][j]
                == if 0 <= i - dy < |img| && 0 <= j - dx < w then img[i - dy][j - dx] else zero
  {
    var n := |img|;
    var out := ShiftImage(img, w, dx, dy, zero);
    var rows := Roll(img, dy);
    forall i, j | 0 <= i < n && 0 <= j < w
      ensures out[i][j] == if 0 <= i - dy < n && 0 <= j - dx < w then img[i - dy][j - dx] else zero
    {
      RollThenBlank(n, dy, i);
      RollThenBlank(w, dx, j);
      if 0 <= i - dy < n && 0 <= j - dx < w {
        assert rows[i] == img[i - dy];
        assert Roll(rows[i], dx)[j] == rows[i][(j - dx) % w];
      }
    }
  }

  /** A shift by (0, 0) returns the image unchanged. */
  lemma ShiftByZero<T>(img: seq<seq<T>>, w: nat, zero: T)
    requires forall i | 0 <= i < |img| :: |img[i]| == w
    ensures ShiftImage(img, w, 0, 0, zero) == img
  {
    var r := ShiftImage(img, w, 0, 0, zero);
    ShiftImageReads(img, w, 0, 0, zero);
    forall i | 0 <= i < |img|
      ensures r[i] == img[i]
    {
      assert forall j | 0 <= j < w :: r[i][j] == img[i][j];
    }
  }

  /** A shift of at least the full extent in either direction blanks everything. */
  lemma ShiftBeyondExtent<T>(img: seq<seq<T>>, w: nat, dx: int, dy: int, zero: T)
    requires forall i | 0 <= i < |img| :: |img[i]| == w
    requires dx >= w || dx <= -(w as int) || dy >= |img| || dy <= -|img|
    ensures forall i, j | 0 <= i < |img| && 0 <= j < w :: ShiftImage(img, w, dx, dy, zero)[i][j] == zero
  {
    ShiftImageReads(img, w, dx, dy, zero);
  }
}

=== FILE: slices.dfy ===
/** numpy's basic slicing with a start and a positive step, on one row:
    reading `s[start::step]` and assigning `row[start::step] = vals`, with
    numpy's rule that a single value is broadcast to the whole slice and any
    other length mismatch raises. */
module Slices {
  import opened Outcomes
  import Arith

  /** len(range(start, n, step)): how many positions a slice selects. */
  function Count(n: int, start: nat, step: nat): (c: nat)
    requires step > 0
  {
    if start >= n then 0 else (n - start + step - 1) / step
  }

  /** Position j lies on the slice `start::step`. */
  predicate OnStride(j: int, start: nat, step: nat)
    requires step > 0
  {
    start <= j && (j - start) % step == 0
  }

  /** A position of the slice is inside the row exactly when its index
      within the slice is below the slice's length. */
  lemma CountBounds(n: int, start: nat, step: nat, j: int)
    requires step > 0 && OnStride(j, start, step)
    ensures j < n <==> (j - start) / step < Count(n, start, step)
  {
    var q := (j - start) / step;
    Arith.DivModUnique(j - start, step, q, 0);
    if start < n {
      var m := n - start - 1;
      Arith.DivModUnique(m + step, step, m / step + 1, m % step);
      if q <= m / step {
        assert step * q <= step * (m / step) by { MulMono(step, q, m / step); }
      } else {
        assert step * q >= step * (m / step + 1) by { MulMono(step, m / step + 1, q); }
      }
    }
  }

  lemma MulMono(m: int, a: int, b: int)
    requires m > 0 && a <= b
    ensures m * a <= m * b
  {
    assert m * b - m * a == m * (b - a);
  }

  /** The k-th position of a slice lies in the row when k is below its length. */
  lemma SlicePosition(n: int, start: nat, step: nat, k: nat)
    requires step > 0 && k < Count(n, start, step)
    ensures start + step * k < n
  {
    var j := start + step * k;
    assert step * k >= 0 by { MulMono(step, 0, k); }
    Arith.DivModUnique(j - start, step, k, 0);
    assert OnStride(j, start, step);
    CountBounds(n, start, step, j);
  }

  /** The k-th element of the slice `start::step`. */
  function StridedAt<T>(s: seq<T>, start: nat, step: nat, k: nat): (v: T)
    requires step > 0 && k < Count(|s|, start, step)
    ensures start + step * k < |s| && v == s[start + step * k]
  {
    SlicePosition(|s|, start, step, k);
    s[start + step * k]
  }

  /** The read `s[start::step]`. */
  function Strided<T>(s: seq<T>, start: nat, step: nat): (r: seq<T>)
    requires step > 0
    ensures |r| == Count(|s|, start, step)
    ensures forall k | 0 <= k < |r| :: r[k] == StridedAt(s, start, step, k)
  {
    seq(Count(|s|, start, step), k requires 0 <= k < Count(|s|, start, step) => StridedAt(s, start, step, k))
  }

  /** numpy accepts `row[start::step] = vals` when the lengths agree or a
      single value is broadcast. */
  predicate SliceFits(n: int, start: nat, step: nat, m: int)
    requires step > 0
  {
    m == Count(n, start, step) || m == 1
  }

  /** The value position j holds after the assignment. */
  function Assigned<T>(row: seq<T>, start: nat, step: nat, vals: seq<T>, j: int): T
    requires step > 0 && SliceFits(|row|, start, step, |vals|) && 0 <= j < |row|
  {
    if OnStride(j, start, step) then
      CountBounds(|row|, start, step, j);
      vals[if |vals| == 1 then 0 else (j - start) / step]
    else row[j]
  }

  /** The assignment `row[start::step] = vals`. */
  function Assign<T>(row: seq<T>, start: nat, step: nat, vals: seq<T>): (r: Result<seq<T>>)
    requires step > 0
    ensures r.Ok? <==> SliceFits(|row|, start, step, |vals|)
    ensures r.Ok? ==> |r.value| == |row|
    ensures r.Ok? ==> forall j | 0 <= j < |row| :: r.value[j] == Assigned(row, start, step, vals, j)
  {
    if SliceFits(|row|, start, step, |vals|) then
      Ok(seq(|row|, j requires 0 <= j < |row| => Assigned(row, start, step, vals, j)))
    else Err(ShapeMismatch)
  }

  /** Reading back an assigned slice gives the assigned values (the single
      value repeated, when it was broadcast), and every position off the
      slice keeps its value. */
  lemma AssignThenRead<T>(row: seq<T>, start: nat, step: nat, vals: seq<T>)
    requires step > 0 && SliceFits(|row|, start, step, |vals|)
    ensures var r := Assign(row, start, step, vals).value;
            && Strided(r, start, step) == (if |vals| == 1 then seq(Count(|row|, start, step), _ => vals[0]) else vals)
            && forall j | 0 <= j < |row| && !OnStride(j, start, step) :: r[j] == row[j]
  {
    var r := Assign(row, start, step, vals).value;
    var got := Strided(r, start, step);
    var want := if |vals| == 1 then seq(Count(|row|, start, step), _ => vals[0]) else vals;
    forall k | 0 <= k < |got|
      ensures got[k] == want[k]
    {
      Arith.DivModUnique(step * k, step, k, 0);
      assert OnStride(start + step * k, start, step);
    }
  }
}

=== FILE: sources.dfy ===
/** The leaf providers: still pictures and rendered text, a camera, a video,
    an animated GIF and the relay that reads another layer. A device or file
    is modelled by the frames it would deliver, in order. */
module Sources {
  import opened Outcomes
  import opened Images
  import opened Dimension

  /** The triple every `next` returns; `None` stands for Python's None. */
  datatype Out = Out(ret: bool, frame: Option<Image>, mask: Option<Image>)

  /** What a source returns once its input is used up. */
  const Exhausted: Out := Out(false, None, None)

  /** A loaded still frame with the alpha mask split off it, if it had one. */
  datatype Still = Still(frame: Image, mask: Option<Image>)

  datatype Source =
      /** ImageProvider: `file` is what the decoder reads, `loaded` what reset kept. */
    | Picture(file: Image, loaded: Option<Still>)
      /** TextProvider: `rendered` is the frame and mask that reset draws. */
    | Text(rendered: Still, loaded: Option<Still>)
      /** CameraProvider: the frames the device delivers from `pos` on. */
    | Camera(feed: seq<Image>, pos: nat)
      /** VideoProvider: the decoded frames and the size the container reports. */
    | Video(clip: seq<Image>, pos: nat, nativeWidth: Pos, nativeHeight: Pos)
      /** GIFProvider: the frames converted to RGBA, and the size of the file. */
    | Gif(clip: seq<Image>, pos: nat, nativeWidth: Pos, nativeHeight: Pos)
      /** LayerProvider: the other layer's run flag, frame and normalized mask. */
    | Relay(running: bool, frame: Option<Image>, mask: Option<Image>)

  /** Splits a 4-channel image into colour and alpha mask; others stay
      whole. A 2-D (grayscale) picture has no channel axis, so asking for
      its channel count raises. */
  function Load(file: Image): (r: Result<Still>)
    ensures r.Err? <==> file.depth == 1
    ensures r.Err? ==> r.fault == IndexOutOfRange
    ensures r.Ok? ==> (file.depth == 4 <==> r.value.mask.Some?)
    ensures r.Ok? ==> r.value.frame.height == file.height && r.value.frame.width == file.width
    ensures file.depth == 4 ==> r.Ok? && r.value.frame.depth == 3 && r.value.mask.value.depth == 1
    ensures file.depth != 4 && file.depth != 1 ==> r == Ok(Still(file, None))
  {
    if file.depth == 1 then Err(IndexOutOfRange)
    else if file.depth == 4 then
      var (rgb, alpha) := SplitAlpha(file);
      Ok(Still(rgb, Some(alpha)))
    else Ok(Still(file, None))
  }

  /** A clip or device source moved to another read position. */
  function Seek(s: Source, pos: nat): (r: Source)
    requires s.Camera? || s.Video? || s.Gif?
    ensures (r.Camera? || r.Video? || r.Gif?) && r.pos == pos
  {
    match s
    case Camera(feed, _) => Camera(feed, pos)
    case Video(clip, _, nw, nh) => Video(clip, pos, nw, nh)
    case Gif(clip, _, nw, nh) => Gif(clip, pos, nw, nh)
  }

  /** `reset` of a source: reload the still frame, or rewind the clip and
      settle the stored dimension against the clip's native size. */
  function Reset(d: Dims, s: Source): (r: Result<(Dims, Source)>)
    ensures r.Err? <==> s.Picture? && s.file.depth == 1
    ensures s.Picture? && r.Ok? ==> r.value == (d, Picture(s.file, Some(Load(s.file).value)))
    ensures s.Text? ==> r == Ok((d, Text(s.rendered, Some(s.rendered))))
    ensures s.Camera? || s.Relay? ==> r == Ok((d, s))
    ensures (s.Video? || s.Gif?) ==>
              r.Ok? && r.value.1 == Seek(s, 0) && r.value.0 == ResetDims(d, s.nativeWidth, s.nativeHeight)
    ensures (s.Video? || s.Gif?) ==> Fixed(r.value.0) || d.width > 0
  {
    match s
    case Picture(file, _) =>
      var still :- Load(file);
      Ok((d, Picture(file, Some(still))))
    case Text(rendered, _) => Ok((d, Text(rendered, Some(rendered))))
    case Camera(_, _) => Ok((d, s))
    case Video(clip, _, nw, nh) => Ok((ResetDims(d, nw, nh), Video(clip, 0, nw, nh)))
    case Gif(clip, _, nw, nh) => Ok((ResetDims(d, nw, nh), Gif(clip, 0, nw, nh)))
    case Relay(_, _, _) => Ok((d, s))
  }

  /** The `next` of a still source: the frame before any reset is None,
      which survives only when no resizing is asked for. */
  function StillNext(d: Dims, loaded: Option<Still>): (r: Result<(Dims, Out)>)
    ensures r.Ok? ==> r.value.1.ret
    ensures loaded.None? ==> (r.Ok? <==> Native(d))
    ensures loaded.Some? && (Native(d) || Fixed(d)) ==> r.Ok?
    ensures r.Ok? && loaded.Some? ==> r.value.1.frame.Some? && (r.value.1.mask.Some? <==> loaded.value.mask.Some?)
  {
    if loaded.None? then
      if Native(d) then Ok((d, Out(true, None, None))) else Err(NotLoaded)
    else
      var (d', f, m) :- ResolveFrameMask(d, loaded.value.frame, loaded.value.mask);
      Ok((d', Out(true, Some(f), m)))
  }

  /** A frame read from a clip or a device, resolved against the stored
      dimension, with its alpha channel split off when it has four. */
  function Emit(d: Dims, f: Image, split: bool): (r: Result<(Dims, Out)>)
    ensures (Native(d) || Fixed(d)) ==> r.Ok?
    ensures r.Ok? ==> r.value.1.ret && r.value.1.frame.Some?
    ensures r.Ok? ==> (r.value.1.mask.Some? <==> split)
    ensures r.Ok? && split ==> r.value.1.frame.value.depth == 3
  {
    var (d', g) :- ResolveFrame(d, f);
    if split then
      var (rgb, alpha) := SplitAlpha(g);
      Ok((d', Out(true, Some(rgb), Some(alpha))))
    else Ok((d', Out(true, Some(g), None)))
  }

  /** The next frame of a video clip is two-dimensional. */
  predicate FlatVideoFrame(s: Source) {
    s.Video? && s.pos < |s.clip| && s.clip[s.pos].depth == 1
  }

  /** `next` of a source: the stored dimension afterwards, the advanced
      source and the triple. */
  function Next(d: Dims, s: Source): (r: Result<(Dims, Source, Out)>)
    ensures Native(d) && r.Ok? ==> r.value.0 == d
    ensures r.Ok? && !Native(d) && r.value.2.frame.Some? ==>
              Fixed(r.value.0) && r.value.2.frame.value.width == r.value.0.width &&
              r.value.2.frame.value.height == r.value.0.height
    // a clip is read in order and reports exhaustion once it has run out
    ensures (s.Camera? || s.Video?) ==>
              if s.pos < (if s.Camera? then |s.feed| else |s.clip|) then
                r.Ok? ==> r.value.1 == Seek(s, s.pos + 1) && r.value.2.ret
              else r == Ok((d, s, Exhausted))
    // the GIF reader seeks one frame past its position before decoding
    ensures s.Gif? ==>
              if s.pos + 1 < |s.clip| then
                r.Ok? ==> r.value.1 == Seek(s, s.pos + 1) && r.value.2.ret && r.value.2.mask.Some?
              else r == Ok((d, s, Exhausted))
    ensures (s.Camera? || s.Video? || s.Gif?) && (Native(d) || Fixed(d)) && !FlatVideoFrame(s) ==> r.Ok?
    // a clip frame without a channel axis fails the alpha test, after the resize
    ensures FlatVideoFrame(s) ==> r.Err?
    ensures FlatVideoFrame(s) && (Native(d) || Fixed(d)) ==> r == Err(IndexOutOfRange)
    ensures s.Picture? || s.Text? ==> (r.Ok? ==> r.value.1 == s && r.value.2.ret)
    ensures s.Relay? ==> (r.Ok? ==> r.value.1 == s && r.value.2.ret == s.running)
    ensures s.Relay? && (Native(d) || Fixed(d) || s.frame.None?) ==> r.Ok?
  {
    match s
    case Picture(_, loaded) =>
      var (d', o) :- StillNext(d, loaded);
      Ok((d', s, o))
    case Text(_, loaded) =>
      var (d', o) :- StillNext(d, loaded);
      Ok((d', s, o))
    case Camera(feed, pos) =>
      if pos < |feed| then
        var (d', o) :- Emit(d, feed[pos], false);
        Ok((d', Camera(feed, pos + 1), o))
      else Ok((d, s, Exhausted))
    case Video(clip, pos, nw, nh) =>
      if pos < |clip| then
        var (d', o) :- Emit(d, clip[pos], clip[pos].depth == 4);
        if clip[pos].depth == 1 then Err(IndexOutOfRange)
        else Ok((d', Video(clip, pos + 1, nw, nh), o))
      else Ok((d, s, Exhausted))
    case Gif(clip, pos, nw, nh) =>
      if pos + 1 < |clip| then
        var (d', o) :- Emit(d, clip[pos + 1], true);
        Ok((d', Gif(clip, pos + 1, nw, nh), o))
      else Ok((d, s, Exhausted))
    case Relay(running, frame, mask) =>
      if frame.None? then Ok((d, s, Out(running, None, mask)))
      else
        var (d', f) :- ResolveFrame(d, frame.value);
        var m :- ResizeOpt(mask, f.width, f.height);
        var m' := if m.Some? then Some(Apply(Denormalize, m.value)) else None;
        Ok((d', s, Out(running, Some(f), m')))
  }

  /** A video frame is read only when it has a channel axis: the alpha
      test asks for the third dimension after the size is resolved, so a
      flat frame raises, and every other frame of a resolvable size is
      shown with its alpha split off exactly when it has four channels. */
  lemma VideoNeedsChannels(d: Dims, s: Source)
    requires s.Video? && s.pos < |s.clip| && (Native(d) || Fixed(d))
    ensures Next(d, s).Ok? <==> s.clip[s.pos].depth != 1
    ensures Next(d, s).Err? ==> Next(d, s).fault == IndexOutOfRange
    ensures Next(d, s).Ok? ==> Next(d, s).value.2 == Emit(d, s.clip[s.pos], s.clip[s.pos].depth == 4).value.1
  {
  }
}

=== FILE: strip.dfy ===
/** The column arithmetic of the horizontal scroller, one row at a time.
    A row of the output is cut from a strip that is the frame padded on the
    right with `pad` zero columns; the cut starts at `dx mod period` and
    wraps to the start of the strip. */
module Strip {
  import Arith

  /** cv2.copyMakeBorder(row, 0, 0, 0, pad, BORDER_CONSTANT, 0) for one row. */
  function PadRight<T>(s: seq<T>, pad: nat, zero: T): (r: seq<T>)
    ensures |r| == |s| + pad
    ensures forall k | 0 <= k < |r| :: r[k] == if k < |s| then s[k] else zero
  {
    s + seq(pad, _ => zero)
  }

  /** The slice assignment `s[at : at + |v|] = v`. */
  function Overwrite<T>(s: seq<T>, at: nat, v: seq<T>): (r: seq<T>)
    requires at + |v| <= |s|
    ensures |r| == |s|
    ensures forall k | 0 <= k < |s| :: r[k] == if at <= k < at + |v| then v[k - at] else s[k]
  {
    s[..at] + v + s[at + |v|..]
  }

  /** Source wider than the output: the code copies strip[d1:d2] and then
      strip[0:d4] into a row of `w` columns, where d1 = dx mod |strip| and
      the second piece is the part of the window that runs off the end. */
  function WideRow<T>(strip: seq<T>, dx: int, w: nat): (r: seq<T>)
    requires w < |strip|
    ensures |r| == w
  {
    var wp := |strip|;
    var d1 := dx % wp;
    var d2 := d1 + w;
    if d2 > wp then strip[d1..wp] + strip[0..d2 - wp] else strip[d1..d2]
  }

  /** Column j of a wide row is column (dx + j) mod |strip| of the strip. */
  lemma WideRowIsCyclicRead<T>(strip: seq<T>, dx: int, w: nat)
    requires w < |strip|
    ensures forall j | 0 <= j < w :: WideRow(strip, dx, w)[j] == strip[(dx + j) % |strip|]
  {
    var wp := |strip|;
    var r := WideRow(strip, dx, w);
    forall j | 0 <= j < w
      ensures r[j] == strip[(dx + j) % wp]
    {
      Arith.ModAddSmall(dx, j, wp);
    }
  }

  /** Source no wider than the output: the frame row is written into a zero
      row of w + pad columns at d1 = dx mod (w + pad), the part that runs off
      the end continues at column 0, and the pad columns are cut off again. */
  function NarrowRow<T>(src: seq<T>, dx: int, w: nat, pad: nat, zero: T): (r: seq<T>)
    requires |src| <= w
    ensures |r| == w
  {
    var wp := w + pad;
    if wp == 0 then [] else
    var d1 := dx % wp;
    var d2 := d1 + |src|;
    var canvas := seq(wp, _ => zero);
    var placed :=
      if d2 > wp then Overwrite(Overwrite(canvas, d1, src[..wp - d1]), 0, src[wp - d1..])
      else Overwrite(canvas, d1, src);
    placed[..w]
  }

  /** Column j of a narrow row is column (j - dx) mod (w + pad) of the frame
      row padded with zeros to w + pad columns. */
  lemma NarrowRowIsCyclicRead<T>(src: seq<T>, dx: int, w: nat, pad: nat, zero: T)
    requires |src| <= w
    ensures forall j | 0 <= j < w ::
              NarrowRow(src, dx, w, pad, zero)[j] == PadRight(src, w + pad - |src|, zero)[(j - dx) % (w + pad)]
  {
    var wp := w + pad;
    var r := NarrowRow(src, dx, w, pad, zero);
    var strip := PadRight(src, wp - |src|, zero);
    forall j | 0 <= j < w
      ensures r[j] == strip[(j - dx) % wp]
    {
      Arith.ModSubSmall(j, dx, wp);
    }
  }

  /** Scrolling by one full period reproduces the same wide row. */
  lemma WideRowPeriodic<T>(strip: seq<T>, dx: int, w: nat, k: int)
    requires w < |strip|
    ensures WideRow(strip, dx + k * |strip|, w) == WideRow(strip, dx, w)
  {
    Arith.ModAddMultiple(dx, k, |strip|);
    assert dx + k * |strip| == dx + |strip| * k;
  }

  /** Scrolling by one full period reproduces the same narrow row. */
  lemma NarrowRowPeriodic<T>(src: seq<T>, dx: int, w: nat, pad: nat, zero: T, k: int)
    requires |src| <= w
    ensures NarrowRow(src, dx + k * (w + pad), w, pad, zero) == NarrowRow(src, dx, w, pad, zero)
  {
    if w + pad > 0 {
      Arith.ModAddMultiple(dx, k, w + pad);
      assert dx + k * (w + pad) == dx + (w + pad) * k;
    }
  }
}
